=== FILE: README.md ===
# Audit agent core, modelled in Dafny

The audit agent is a ReAct loop. It answers a security analyst's question about a bank's audit
database:

- it asks a language model for a reply;
- it ends when the reply contains `FINAL ANSWER:` and does not contain the text `ACTION:` anywhere;
- otherwise it parses up to five `ACTION: tool(args)` lines from the reply and runs each through
  its tool registry;
- it feeds the observations back to the model and tries again, for at most `max_steps` rounds.

The one database tool that is modelled, `query_postgres`, refuses a query unless, stripped and
upper-cased, it starts with `SELECT` and contains none of eight write keywords as a substring.
This test refuses some reads that merely name a keyword, and it does not make the tool read-only:
a `SELECT` that calls a function with side effects passes it.
It renders result tables as text. `user_exists` decides from that text whether a user id is
known.

The project has five modules, one per part of `audit-agent/audit_agent.py`:

- `Text` holds the Python string operations the agent relies on: `strip`, `upper`/`lower`,
  `split`, `join`, `replace`, `find` and `in`, on characters with ASCII case and whitespace.
- `ActionParser` models `parse_action`:
  - a reference definition `ActionOf` gives the result;
  - the depth scan for the matching parenthesis is a small automaton;
  - comma tokenizing with `shlex` in POSIX mode becomes the `Lex` state machine;
  - each token is coerced to int/float/bool/None/str;
  - the method `ParseAction` follows the source's loops and is proved equal to `ActionOf`.
- `PostgresTools` models the SELECT-and-keyword guard, the row formatter, the tool as a whole (the
  database is a function from query text to a table or an exception message) and
  `user_exists`, both as written and with its confirmation test corrected (see "## Findings").
- `ToolRegistry` models the tool table built by the constructor and `execute_tool`. A tool is a
  function from the parsed arguments to a returned string or a raised message. `query_postgres`
  is given as a registered tool.
- `AgentLoop` models `run`:
  - the language model is an oracle from the transcript to its reply;
  - a run is the function `RunOf`;
  - the method `Run` (and the methods it calls for one step) follows the source's loops and is
    proved equal to it;
  - lemmas state the transcript's shape, when the loop ends, and what each step records.

## Model

| member | source | states |
|---|---|---|
| Text.Strip | audit-agent/audit_agent.py:216 | Python's `str.strip()`: the result has no surrounding whitespace, is no longer than the input, and is the input itself when that is already trimmed |
| Text.StripSplits | audit-agent/audit_agent.py:219 | the stripped text is a slice of the input with only whitespace cut from either end |
| Text.SplitBy | audit-agent/audit_agent.py:216 | `str.split(sep)`: at least one piece, joining the pieces with `sep` gives back the input, and no piece contains `sep` |
| Text.AfterLast | audit-agent/audit_agent.py:400 | `s.split(m)[-1]`: holds no `m`; the input ends with `m` followed by it when `m` occurs; otherwise it is the input |
| Text.ReplaceAbsent | audit-agent/audit_agent.py:401 | `replace` of a pattern that does not occur returns the input unchanged |
| Text.FindChar | audit-agent/audit_agent.py:222 | `str.find(c)`: -1 exactly when `c` is absent, else the index of its first occurrence |
| Text.DecimalRoundTrip | audit-agent/audit_agent.py:52 | the decimal text of a count reads back as that count |
| ActionParser.CoerceInt | audit-agent/audit_agent.py:258-259 | exactly the all-digit values become ints, and the decimal text of every `n` coerces to `n` |
| ActionParser.CoerceFloat | audit-agent/audit_agent.py:260-261 | a value becomes a float exactly when it is not all digits but is all digits after removing one '.'; the float keeps its literal text, which has exactly one '.' |
| ActionParser.CoerceBool | audit-agent/audit_agent.py:262-265 | the values that become `True`/`False` are exactly `true`/`false` in any letter case |
| ActionParser.CoerceNone | audit-agent/audit_agent.py:266-267 | the values that become `None` are exactly `none` in any letter case |
| ActionParser.NullStaysString | audit-agent/audit_agent.py:266-271 | `null` is not the None sentinel and stays the string `"null"` |
| ActionParser.CoerceWord | audit-agent/audit_agent.py:268-271 | a word that looks like no number, bool, None or quoted text stays the raw string |
| ActionParser.CoerceQuoted | audit-agent/audit_agent.py:268-271 | a value wrapped in a matching pair of quotes loses exactly that pair |
| ActionParser.FirstClose | audit-agent/audit_agent.py:228-239 | the scan stops at the first position where the depth is back to 0, and the depth is non-zero everywhere before it |
| ActionParser.SingleQuotedInert | audit-agent/audit_agent.py:230-238 | inside an open single quote, text without a single quote changes neither the depth nor the quote flags |
| ActionParser.DoubleQuotedInert | audit-agent/audit_agent.py:232-238 | inside an open double quote, text without a double quote changes neither the depth nor the quote flags |
| ActionParser.ScanWithoutClose | audit-agent/audit_agent.py:235-238 | with no ')' in the text, the depth never drops |
| ActionParser.Tokenize | audit-agent/audit_agent.py:245-249 | the shlex token list, or None (shlex raises) exactly when a quote is left open at the end; every kept token is non-empty or was quoted |
| ActionParser.TokenizeWithoutQuotes | audit-agent/audit_agent.py:245-249 | without quotes, tokenizing is splitting at every comma and dropping the empty pieces |
| ActionParser.TokenizeQuoted | audit-agent/audit_agent.py:245-249 | a quoted argument comes back as one token without its quotes, whatever commas or parentheses it holds |
| ActionParser.TokenizeAtComma | audit-agent/audit_agent.py:245-249 | a comma outside quotes splits the token list: the tokens before it followed by the tokens after it, and an error exactly when the text after it leaves a quote open |
| ActionParser.TokenizePiece | audit-agent/audit_agent.py:245-249 | an argument with no comma outside quotes, whose quotes all close, is exactly one token: its text with every opening and closing quote removed, marked quoted when it held a quote; an empty argument gives no token |
| ActionParser.TokenizeKeyQuoted | audit-agent/audit_agent.py:245-249 | quotes in the middle of an argument are removed too: plain text followed by a quoted part is the one token of the two texts joined |
| ActionParser.TokenizeItsFine | audit-agent/audit_agent.py:245-249 | `x="it's fine"` is the single token `x=it's fine` |
| ActionParser.KeywordQuotedValue | audit-agent/audit_agent.py:245-272 | a keyword with a quoted value, as in `query="SELECT ..."`, binds the key to the coerced text inside the quotes, whatever commas or parentheses it holds |
| ActionParser.ScanQuotesAgree | audit-agent/audit_agent.py:230-233 | the depth scan's two quote flags follow the same automaton as the shlex quote state, and are never both set |
| ActionParser.ArgsQuotesClosed | audit-agent/audit_agent.py:240-249 | on backslash-free argument text that the scan accepted, the tokenizer never reaches its unclosed-quote error |
| ActionParser.CollectPositional | audit-agent/audit_agent.py:273-289 | the positional arguments are exactly the tokens without '=', coerced, in their original order |
| ActionParser.CollectKeywords | audit-agent/audit_agent.py:254-272 | the keyword map has exactly the keys that occur, each bound to the value of its last occurrence |
| ActionParser.FirstActionLine | audit-agent/audit_agent.py:216-218 | the chosen line starts with the action marker, and there is none exactly when no line starts with it |
| ActionParser.FirstActionLineIsFirst | audit-agent/audit_agent.py:217-218 | the chosen line is the first line that starts with the marker |
| ActionParser.Unterminated | audit-agent/audit_agent.py:240-241 | an action text with '(' but no ')' parses to None |
| ActionParser.EmptyArgs | audit-agent/audit_agent.py:242-244 | `NAME(` blank `)` parses to the stripped name with no arguments |
| ActionParser.CloseWithoutOpen | audit-agent/audit_agent.py:222-242 | with ')' but no '(', `find` gives -1: `bar)` parses as the tool `bar` called with the one argument `"bar"` |
| ActionParser.FindClose | audit-agent/audit_agent.py:222-241 | the depth loop finds a close exactly when `FirstClose` does, and at the same place |
| ActionParser.ClassifyKeyword | audit-agent/audit_agent.py:253-257 | a token `k=v` whose key part has no '=' is a keyword argument with the stripped key and the stripped, coerced value; any further '=' stays in the value |
| ActionParser.ClassifyPositional | audit-agent/audit_agent.py:273-289 | a token with no '=' once stripped is a positional argument: the stripped token, coerced |
| ActionParser.QuotedKeyword | audit-agent/audit_agent.py:245-272 | the '=' test sees the token after shlex removed its quotes: the argument text `'k=v'` is one token, yet it binds the keyword `k` to the coerced `v` |
| ActionParser.CollectArgs | audit-agent/audit_agent.py:250-289 | the token loop's lists are the reference collection of the classified tokens |
| ActionParser.ParseActionText | audit-agent/audit_agent.py:220-290 | parsing one action text gives the reference call, or None where the source returns `(None, None, None)` |
| ActionParser.ParseAction | audit-agent/audit_agent.py:215-291 | `parse_action` as a whole equals the reference `ActionOf` |
| PostgresTools.Guard | audit-agent/audit_agent.py:25-30 | a refusal is one of the two guard messages |
| PostgresTools.GuardIgnoresCase | audit-agent/audit_agent.py:25 | upper-casing a query first never changes the guard's answer |
| PostgresTools.GuardIgnoresPadding | audit-agent/audit_agent.py:25 | stripping a query first never changes the guard's answer |
| PostgresTools.KeywordAnywhereRefused | audit-agent/audit_agent.py:28-30 | a SELECT with a keyword anywhere, even inside a name or literal, is refused as a write |
| PostgresTools.SelectWithoutRUDPasses | audit-agent/audit_agent.py:25-30 | the guard is a text test, not a read-only check: every write keyword holds an R, U or D, so any SELECT without those letters gets through, such as `SELECT NEXTVAL('S')`, which advances a sequence |
| PostgresTools.ResultLinesShape | audit-agent/audit_agent.py:47-52 | the rendering is the header, a dash rule as long as the header, then the first twenty rows, then a tail line only when rows were cut |
| PostgresTools.MoreRowsCounted | audit-agent/audit_agent.py:51-52 | when rows were cut, the last line reports the number left out, and that number reads back as the count |
| PostgresTools.FormatRows | audit-agent/audit_agent.py:47-53 | the line-appending loop gives the reference rendering, joined with newlines |
| PostgresTools.GuardBeforeDatabase | audit-agent/audit_agent.py:24-30 | a refused query never reaches the database: the outcome is the refusal whatever the database holds |
| PostgresTools.QueryPostgres | audit-agent/audit_agent.py:24-55 | the tool's result is the refusal, `Database error: ` plus the message, the no-rows text, or the rendered table, as the reference says |
| PostgresTools.RefusalSaysError | audit-agent/audit_agent.py:27-30 | both guard refusals contain `Error` |
| PostgresTools.NoRowsNotConfirmed | audit-agent/audit_agent.py:45-46 | the no-rows text returned here fails the confirmation test of line 116 |
| PostgresTools.KeywordInUserId | audit-agent/audit_agent.py:114-116 | a user id the guard refuses as a write (a keyword in any letter case) is never confirmed |
| PostgresTools.OneRowConfirmed | audit-agent/audit_agent.py:114-116 | when the lookup returns the single row of `SELECT 1`, the user is confirmed |
| PostgresTools.FailureConfirmsAsWritten | audit-agent/audit_agent.py:116 | a database failure whose message has a '1' and no 'E' or 'N' passes the test as written, and fails the corrected test |
| PostgresTools.ConfirmedMeansRows | audit-agent/audit_agent.py:114-116 | the corrected test confirms a user only when the guard let the lookup through and the database returned at least one row |
| PostgresTools.UserExists | audit-agent/audit_agent.py:114-116 | `user_exists` as written: the substring test of line 116 applied to the tool's text for the lookup query |
| PostgresTools.UserExistsCorrected | audit-agent/audit_agent.py:114-116 | `user_exists` with the corrected test: a confirmed user means the lookup returned at least one row, and the one row of `SELECT 1` confirms |
| ToolRegistry.NewAgent | audit-agent/audit_agent.py:301-310 | the constructed table holds exactly the eight registered names, each bound to its implementation |
| ToolRegistry.UnknownToolNamed | audit-agent/audit_agent.py:369 | reading a name back from a report gives a name whose unknown-tool report is that text |
| ToolRegistry.UnknownToolReported | audit-agent/audit_agent.py:368-369 | an unregistered name is reported as unknown, and the name reads back from the report |
| ToolRegistry.UnknownExactlyUnregistered | audit-agent/audit_agent.py:367-373 | on a constructed agent, exactly the names outside the registry are reported unknown; the others give the tool's text or its failure report |
| ToolRegistry.ReportsDistinct | audit-agent/audit_agent.py:369-373 | an unknown-tool report and a tool-failure report are never equal, and a failure report never reads as unknown |
| ToolRegistry.FailureReported | audit-agent/audit_agent.py:370-373 | a raised exception becomes a string that starts with `Error executing <name>: ` and ends with the exception's message |
| ToolRegistry.RefusalThroughDispatcher | audit-agent/audit_agent.py:302 | through the dispatcher, positionally or as `query=`, a refused query comes back as the guard's message |
| AgentLoop.ThoughtFromFirst | audit-agent/audit_agent.py:392-396 | the thought is taken from the first line that, stripped and lower-cased, starts with `thought:` |
| AgentLoop.NoThoughtLine | audit-agent/audit_agent.py:392 | with no such line the thought is empty |
| AgentLoop.ExtractThought | audit-agent/audit_agent.py:392-396 | the loop with `break` gives the reference thought |
| AgentLoop.FinalAnswer | audit-agent/audit_agent.py:400-401 | the answer is stripped |
| AgentLoop.AnswerAfterLastMarker | audit-agent/audit_agent.py:399-401 | a final answer comes from the text after the last `FINAL ANSWER:`; when that text has no sign-off phrase, the answer is exactly that text, stripped |
| AgentLoop.ActionMarkerVetoes | audit-agent/audit_agent.py:399 | a reply containing `ACTION:` anywhere never ends the run |
| AgentLoop.ActionLinesConcat | audit-agent/audit_agent.py:412 | the action lines of two runs of lines are those of the first followed by those of the second, and a single line is kept exactly when it starts with `ACTION:` once stripped |
| AgentLoop.Considered | audit-agent/audit_agent.py:417-420 | a step considers the first five action lines in reply order, or all of them when there are fewer |
| AgentLoop.CallFor | audit-agent/audit_agent.py:421-425 | a line yields a tool call only with a non-empty tool name |
| AgentLoop.CallsFromLines | audit-agent/audit_agent.py:417-425 | there are no more calls than lines; each call has a non-empty tool and is the call of one of the lines |
| AgentLoop.CallsInLineOrder | audit-agent/audit_agent.py:417-425 | the calls of two stretches of lines are the calls of the first followed by those of the second |
| AgentLoop.StepCallsBounded | audit-agent/audit_agent.py:417-420 | a step makes at most five tool calls |
| AgentLoop.SkippedLinesUseTheCap | audit-agent/audit_agent.py:418-422 | lines that give no tool still count toward the five: when the first five give none, the step makes no call even if later lines would |
| AgentLoop.FullStep | audit-agent/audit_agent.py:417-425 | when the first five action lines each lead to a call, exactly five tools run, one per line, in order, however many action lines follow |
| AgentLoop.Observations | audit-agent/audit_agent.py:424 | one observation per tool call |
| AgentLoop.ActOnLine | audit-agent/audit_agent.py:421-425 | parsing a line and running its tool gives the reference call |
| AgentLoop.ExecuteActions | audit-agent/audit_agent.py:412-425 | the action loop, with its counter and `break`, gives the reference calls and their observations |
| AgentLoop.FollowUpKind | audit-agent/audit_agent.py:434-448 | the follow-up is a user turn, and it starts with `OBSERVATIONS:` exactly when some tool was called |
| AgentLoop.Act | audit-agent/audit_agent.py:411-448 | a non-final reply gives the reference step record and follow-up turn |
| AgentLoop.Respond | audit-agent/audit_agent.py:391-448 | one round gives the reference reaction: finish with the answer, or record the step and go on |
| AgentLoop.Iterate | audit-agent/audit_agent.py:389-448 | one loop iteration advances the reference run by one step, or ends it with the answer |
| AgentLoop.Run | audit-agent/audit_agent.py:375-452 | `run` as a whole, including its transcript and step history, equals the reference run |
| AgentLoop.RunTranscriptShape | audit-agent/audit_agent.py:382-386 | the transcript opens with the system prompt and the question, and has two more turns per recorded step |
| AgentLoop.RunStep | audit-agent/audit_agent.py:389-448 | recorded step `k` answers a non-final reply to the turns before it; the step record and the follow-up are what the agent made of that reply |
| AgentLoop.RunEnds | audit-agent/audit_agent.py:388-409 | an answer comes from a final reply before the budget is spent, and that reply is not recorded; no answer means exactly `max_steps` recorded steps |
| AgentLoop.NeverFinal | audit-agent/audit_agent.py:375-452 | with the default budget, a model that never concludes gives no answer, 20 steps and 42 turns |

## Left out

- The language model call (`call_llm`, the Groq client) is an oracle parameter from the transcript to the reply.
- The system prompt text is a parameter of the agent, not the literal.
- The database connection is a parameter from query text to a table or an exception message. So is every environment variable.
- The other seven tools are opaque functions in the registry: `list_tables`, `get_table_schema`, `get_distinct_statuses`, the alert, e-mail, report and review tools, and their SMTP and file I/O. Only `query_postgres` is modelled.
- Python exception messages are abstract. A tool's raised message is a value of the model. So is the text of a call with wrong arguments to the query tool (`complaint`).
- Printing is left out: `structured` mode's `STEP_JSON` lines and the terminal output change no value the agent returns.
- The `__main__` loop and the `auditapi` Java service are not part of this model.
- `str(cell)`: each non-NULL cell comes already rendered as text.
- Floats are kept as their literal text, since float parsing and rounding are not modelled.
- Characters: case folding and whitespace cover ASCII only. Unicode case mapping and Unicode whitespace are not modelled.
- ActionParser.Coerce: digits are ASCII `0`-`9` only. Python's `str.isdigit` also accepts other digits. For `²` or `①` it is true, and then `int()` at line 259 or `float()` at line 261 raises `ValueError`. `run` calls `parse_action` at line 421, outside `execute_tool`'s `try`, so `ACTION: f(²)` aborts the run. The model keeps such a value as a string and goes on. Arabic-Indic digits such as `١٢` become the int 12 in Python; the model keeps them as a string. CPython's 4300-digit limit on `int()` of a string, which also raises, is not modelled: any all-digit value becomes an int.
- ActionParser.Tokenize: shlex escape characters (`\` in POSIX mode) are not modelled. A backslash is an ordinary character in this model.
- AgentLoop.Run: in the source, a backslash can make shlex raise inside `parse_action`: `ACTION: f(a\)` ends in an escape with nothing after it, and `ACTION: f(\'x')` leaves a quote open. `run` calls `parse_action` at line 421, outside `execute_tool`'s `try`, so that error aborts the whole run. The model has no such error: it treats the backslash as an ordinary character and the run goes on.
- AgentLoop.Run: it returns the transcript and step history as well as the answer, so that their shape can be stated. The source keeps them as locals.

## Findings

| source | as written | input that shows it | evidently intended | confidence | as-written member | corrected member |
|---|---|---|---|---|---|---|
| audit-agent/audit_agent.py:116 | `user_exists` returns True when the tool's text has a "1" and neither "No rows" nor "Error" | a database that is down. `Database error: connection to server at "127.0.0.1", port 5432 failed` has a "1" and no "Error" (it says "error"), so a user is confirmed without any row | a user is confirmed only when the lookup returned a row | not executed | PostgresTools.FailureConfirmsAsWritten | PostgresTools.UserExistsCorrected |

=== FILE: action_parser.dfy ===
/**
 * The action-line parser: one `ACTION: name(args...)` line of model output becomes a tool
 * name, positional arguments and keyword arguments, or nothing when the call is unterminated.
 */
module ActionParser {
  import opened Text

  /** A coerced argument: Python int, float (kept as its literal text), bool, None or str. */
  datatype Value = IntVal(n: nat) | FloatVal(literal: string) | BoolVal(b: bool) | NoneVal | StrVal(s: string)

  /** A parsed action: tool name, positional arguments in order, keyword arguments. */
  datatype Call = Call(name: string, args: seq<Value>, kwargs: map<string, Value>)

  const Marker: string := "ACTION:"

  // ---------------------------------------------------------------------------
  // Value coercion: the chain tried on every keyword and positional value.
  // ---------------------------------------------------------------------------

  /** `v.replace('.', '', 1).isdigit()`. */
  predicate IsFloatLiteral(v: string)
  {
    IsDigits(RemoveFirst(v, '.'))
  }

  predicate QuotedBy(v: string, q: char)
  {
    StartsWith(v, [q]) && EndsWith(v, [q])
  }

  /** Python's `v[1:-1]`. */
  function Unwrap(v: string): string
  {
    if |v| <= 1 then "" else v[1..|v| - 1]
  }

  function Coerce(v: string): Value
  {
    if IsDigits(v) then IntVal(DigitsValue(v))
    else if IsFloatLiteral(v) then FloatVal(v)
    else if Lower(v) == "true" then BoolVal(true)
    else if Lower(v) == "false" then BoolVal(false)
    else if Lower(v) == "none" then NoneVal
    else if QuotedBy(v, '"') || QuotedBy(v, '\'') then StrVal(Unwrap(v))
    else StrVal(v)
  }

  /** Exactly the all-digit values become integers, and the decimal text of every `n` reads back as `n`. */
  lemma CoerceInt(v: string, n: nat)
    ensures Coerce(v).IntVal? <==> IsDigits(v)
    ensures Coerce(Decimal(n)) == IntVal(n)
  {
    DecimalRoundTrip(n);
  }

  /** A float is a non-integer whose text has exactly one '.' and otherwise only digits; the text is kept. */
  lemma CoerceFloat(v: string)
    ensures Coerce(v).FloatVal? <==> !IsDigits(v) && IsFloatLiteral(v)
    ensures Coerce(v).FloatVal? ==> Coerce(v).literal == v && multiset(v)['.'] == 1
    ensures Coerce(v).FloatVal? ==> forall i :: 0 <= i < |v| && v[i] != '.' ==> IsDigit(v[i])
  {
    if Coerce(v).FloatVal? {
      var r := RemoveFirst(v, '.');
      assert '.' !in r;
      assert multiset(r)['.'] == 0;
      forall i | 0 <= i < |v| && v[i] != '.'
        ensures IsDigit(v[i])
      {
        assert v[i] in multiset(v);
        assert v[i] in multiset(r);
        var k :| 0 <= k < |r| && r[k] == v[i];
      }
    }
  }

  lemma LowerFirst(v: string)
    requires v != []
    ensures Lower(v)[0] == LowerChar(v[0])
  {
  }

  /** A word with a letter in front is neither an integer nor a float. */
  lemma NotNumber(v: string)
    requires v != [] && !IsDigit(v[0]) && v[0] != '.'
    ensures !IsDigits(v) && !IsFloatLiteral(v)
  {
    var r := RemoveFirst(v, '.');
    if v[0] != '.' && r != [] {
      assert r[0] == v[0];
    }
  }

  /** `true` and `false` in any letter case, and nothing else, become booleans. */
  lemma CoerceBool(v: string, b: bool)
    ensures Coerce(v) == BoolVal(b) <==> Lower(v) == (if b then "true" else "false")
  {
    if Lower(v) == "true" || Lower(v) == "false" {
      LowerFirst(v);
      NotNumber(v);
    }
  }

  /** `none` in any letter case, and nothing else, becomes None. */
  lemma CoerceNone(v: string)
    ensures Coerce(v) == NoneVal <==> Lower(v) == "none"
  {
    if Lower(v) == "none" {
      LowerFirst(v);
      NotNumber(v);
    }
  }

  lemma LowerNull(v: string)
    requires v == "null"
    ensures Lower(v) != "true" && Lower(v) != "false" && Lower(v) != "none"
  {
    assert Lower(v) == "null";
    assert "null"[0] != "true"[0] && "null"[0] != "false"[0] && "null"[1] != "none"[1];
  }

  /** Only `none` is the null sentinel: `null` stays the string "null". */
  lemma NullStaysString(v: string)
    requires v == "null"
    ensures Coerce(v) == StrVal(v)
  {
    NotNumber(v);
    LowerNull(v);
    assert !QuotedBy(v, '"') && !QuotedBy(v, '\'') by {
      assert v[..1] == ['n'];
    }
  }

  /** A word that starts like no number, no bool, no None and no quote stays the raw string. */
  lemma CoerceWord(v: string)
    requires v != [] && !IsDigit(v[0]) && v[0] != '.' && v[0] != '"' && v[0] != '\''
    requires LowerChar(v[0]) != 't' && LowerChar(v[0]) != 'f' && LowerChar(v[0]) != 'n'
    ensures Coerce(v) == StrVal(v)
  {
    NotNumber(v);
    assert Lower(v) != "true" && Lower(v) != "false" && Lower(v) != "none" by {
      LowerFirst(v);
      assert "true"[0] == 't' && "false"[0] == 'f' && "none"[0] == 'n';
    }
    assert !QuotedBy(v, '"') && !QuotedBy(v, '\'') by {
      assert v[..1] == [v[0]];
    }
  }

  /** A value wrapped in a matching pair of quotes loses exactly that pair, whatever is inside. */
  lemma CoerceQuoted(s: string, q: char)
    requires q == '"' || q == '\''
    ensures Coerce([q] + s + [q]) == StrVal(s)
  {
    var v := [q] + s + [q];
    NotNumber(v);
    assert Lower(v) != "true" && Lower(v) != "false" && Lower(v) != "none" by {
      LowerFirst(v);
      assert Lower(v)[0] == q;
      assert "true"[0] == 't' && "false"[0] == 'f' && "none"[0] == 'n';
    }
    assert QuotedBy(v, q) by {
      assert v[..1] == [q];
      assert v[|v| - 1..] == [q];
    }
    assert v[1..|v| - 1] == s;
  }

  // ---------------------------------------------------------------------------
  // The parenthesis scan: depth plus single- and double-quote flags.
  // ---------------------------------------------------------------------------

  datatype ScanState = ScanState(depth: int, inSingle: bool, inDouble: bool)

  /** The state right after the opening parenthesis. */
  const Open := ScanState(1, false, false)

  /** One character: a quote toggles its own flag only when the other kind is closed; parentheses count only outside quotes. */
  function ScanStep(st: ScanState, c: char): ScanState
  {
    var single := if c == '\'' && !st.inDouble then !st.inSingle else st.inSingle;
    var double := if c == '"' && !st.inSingle then !st.inDouble else st.inDouble;
    var depth :=
      if !single && !double && c == '(' then st.depth + 1
      else if !single && !double && c == ')' then st.depth - 1
      else st.depth;
    ScanState(depth, single, double)
  }

  function ScanAll(st: ScanState, s: string): ScanState
    decreases |s|
  {
    if s == [] then st else ScanAll(ScanStep(st, s[0]), s[1..])
  }

  lemma {:induction false} ScanAllSnoc(st: ScanState, s: string, c: char)
    ensures ScanAll(st, s + [c]) == ScanStep(ScanAll(st, s), c)
    decreases |s|
  {
    if s != [] {
      assert (s + [c])[1..] == s[1..] + [c];
      ScanAllSnoc(ScanStep(st, s[0]), s[1..], c);
    }
  }

  /** The depth after scanning `t[from..k]` from just after the opening parenthesis. */
  function Depth(t: string, from: nat, k: nat): int
    requires from <= k <= |t|
  {
    ScanAll(Open, t[from..k]).depth
  }

  /** The first `e` at or after `k` where the depth is back to 0, if the line has one. */
  function FirstClose(t: string, from: nat, k: nat): (r: Option<nat>)
    requires from <= k <= |t|
    ensures r.Some? ==> k <= r.value <= |t| && Depth(t, from, r.value) == 0
    ensures forall j :: k <= j <= |t| && (r.None? || j < r.value) ==> Depth(t, from, j) != 0
    decreases |t| - k
  {
    if Depth(t, from, k) == 0 then Some(k)
    else if k == |t| then None
    else FirstClose(t, from, k + 1)
  }

  /** Inside an open single quote, a stretch with no single quote changes nothing: its parentheses do not count. */
  lemma {:induction false} SingleQuotedInert(st: ScanState, w: string)
    requires st.inSingle && !st.inDouble && '\'' !in w
    ensures ScanAll(st, w) == st
    decreases |w|
  {
    if w != [] {
      SingleQuotedInert(ScanStep(st, w[0]), w[1..]);
    }
  }

  /** Inside an open double quote, a stretch with no double quote changes nothing: its parentheses do not count. */
  lemma {:induction false} DoubleQuotedInert(st: ScanState, w: string)
    requires st.inDouble && !st.inSingle && '"' !in w
    ensures ScanAll(st, w) == st
    decreases |w|
  {
    if w != [] {
      DoubleQuotedInert(ScanStep(st, w[0]), w[1..]);
    }
  }

  /** Without a closing parenthesis the depth never drops. */
  lemma {:induction false} ScanWithoutClose(st: ScanState, s: string)
    requires ')' !in s
    ensures ScanAll(st, s).depth >= st.depth
    decreases |s|
  {
    if s != [] {
      ScanWithoutClose(ScanStep(st, s[0]), s[1..]);
    }
  }

  lemma {:induction false} ScanSpaces(st: ScanState, s: string)
    requires AllSpace(s)
    ensures ScanAll(st, s) == st
    decreases |s|
  {
    if s != [] {
      ScanSpaces(ScanStep(st, s[0]), s[1..]);
    }
  }

  // ---------------------------------------------------------------------------
  // Tokenizing the argument text: POSIX shlex with ',' as the only separator.
  // ---------------------------------------------------------------------------

  datatype Quote = NoQuote | InSingle | InDouble

  /** A token and whether any quote took part in it (shlex keeps quoted empty tokens). */
  datatype Token = Token(text: string, quoted: bool)

  function QuoteStep(q: Quote, c: char): Quote
  {
    match q
    case NoQuote => if c == '\'' then InSingle else if c == '"' then InDouble else NoQuote
    case InSingle => if c == '\'' then NoQuote else InSingle
    case InDouble => if c == '"' then NoQuote else InDouble
  }

  function QuoteAfter(q: Quote, s: string): Quote
    decreases |s|
  {
    if s == [] then q else QuoteAfter(QuoteStep(q, s[0]), s[1..])
  }

  predicate Keeps(t: Token)
  {
    t.text != [] || t.quoted
  }

  function Pending(cur: Option<Token>): seq<Token>
  {
    if cur.Some? then [cur.value] else []
  }

  /**
   * The lexer from position `i`: `q` is the open quote, `cur` the token being built (None between
   * tokens), `acc` the tokens already produced. Reaching the end inside a quote is shlex's
   * "No closing quotation" error.
   */
  function Lex(s: string, i: nat, q: Quote, cur: Option<Token>, acc: seq<Token>): (r: Option<seq<Token>>)
    requires i <= |s|
    requires q != NoQuote ==> cur.Some? && cur.value.quoted
    requires cur.Some? ==> Keeps(cur.value)
    requires forall k :: 0 <= k < |acc| ==> Keeps(acc[k])
    ensures r.None? <==> QuoteAfter(q, s[i..]) != NoQuote
    ensures r.Some? ==> forall k :: 0 <= k < |r.value| ==> Keeps(r.value[k])
    decreases |s| - i
  {
    if i == |s| then
      if q != NoQuote then None else Some(acc + Pending(cur))
    else
      assert s[i..][1..] == s[i + 1..];
      var next := LexStep(q, cur, acc, s[i]);
      Lex(s, i + 1, next.0, next.1, next.2)
  }

  /**
   * One character: inside a quote it joins the token unless it closes the quote; outside, a
   * comma ends the pending token, a quote opens (the token becomes quoted), and anything else
   * joins the token.
   */
  function LexStep(q: Quote, cur: Option<Token>, acc: seq<Token>, c: char): (Quote, Option<Token>, seq<Token>)
    requires q != NoQuote ==> cur.Some?
  {
    if q != NoQuote then
      if c == (if q == InSingle then '\'' else '"') then (NoQuote, cur, acc)
      else (q, Some(Token(cur.value.text + [c], true)), acc)
    else if c == ',' then (NoQuote, None, acc + Pending(cur))
    else if c == '\'' || c == '"' then (if c == '\'' then InSingle else InDouble, Some(Token(TextOf(cur), true)), acc)
    else
      var t := if cur.Some? then cur.value else Token("", false);
      (NoQuote, Some(Token(t.text + [c], t.quoted)), acc)
  }

  /** The token list, or None exactly when a quote is left open at the end. */
  function Tokenize(s: string): (r: Option<seq<Token>>)
    ensures r.None? <==> QuoteAfter(NoQuote, s) != NoQuote
    ensures r.Some? ==> forall k :: 0 <= k < |r.value| ==> Keeps(r.value[k])
  {
    assert s[0..] == s;
    Lex(s, 0, NoQuote, None, [])
  }

  function Texts(ts: seq<Token>): (r: seq<string>)
    ensures |r| == |ts|
  {
    seq(|ts|, k requires 0 <= k < |ts| => ts[k].text)
  }

  /** The reference split for text without quotes: the non-empty comma-separated pieces. */
  function NonEmptyPieces(ps: seq<string>): seq<Token>
  {
    if ps == [] then []
    else (if ps[0] != [] then [Token(ps[0], false)] else []) + NonEmptyPieces(ps[1..])
  }

  predicate NoQuotes(s: string)
  {
    '\'' !in s && '"' !in s
  }

  lemma SplitAtComma(x: string, y: string)
    requires ',' !in x
    ensures SplitBy(x + "," + y, ",") == [x] + SplitBy(y, ",")
  {
    var s := x + "," + y;
    assert OccursAt(s, ",", |x|);
    forall j: nat | j < |x|
      ensures !OccursAt(s, ",", j)
    {
      assert s[j..j + 1] == [x[j]];
    }
    var f := Find(s, ",");
    assert f.Some?;
    assert f.value == |x|;
    assert s[..|x|] == x;
    assert s[|x| + 1..] == y;
  }

  lemma SplitWithoutComma(w: string)
    requires ',' !in w
    ensures SplitBy(w, ",") == [w]
  {
    forall j: nat | j + 1 <= |w|
      ensures !OccursAt(w, ",", j)
    {
      assert w[j..j + 1] == [w[j]];
    }
  }

  lemma PiecesCons(w: string, rest: seq<string>)
    ensures NonEmptyPieces([w] + rest) == (if w != [] then [Token(w, false)] else []) + NonEmptyPieces(rest)
  {
    assert ([w] + rest)[0] == w;
    assert ([w] + rest)[1..] == rest;
  }

  lemma PiecesAtComma(w: string, y: string)
    requires ',' !in w
    ensures NonEmptyPieces(SplitBy(w + "," + y, ",")) == (if w != [] then [Token(w, false)] else []) + NonEmptyPieces(SplitBy(y, ","))
  {
    SplitAtComma(w, y);
    PiecesCons(w, SplitBy(y, ","));
  }

  lemma PiecesWithoutComma(w: string)
    requires ',' !in w
    ensures NonEmptyPieces(SplitBy(w, ",")) == if w != [] then [Token(w, false)] else []
  {
    SplitWithoutComma(w);
    PiecesCons(w, []);
    assert [w] + [] == [w];
  }

  /** One lexer step on a comma outside quotes: the pending token is emitted. */
  lemma LexComma(s: string, i: nat, cur: Option<Token>, acc: seq<Token>)
    requires i < |s| && s[i] == ','
    requires cur.Some? ==> Keeps(cur.value)
    requires forall k :: 0 <= k < |acc| ==> Keeps(acc[k])
    ensures Lex(s, i, NoQuote, cur, acc) == Lex(s, i + 1, NoQuote, None, acc + Pending(cur))
  {
  }

  /** One lexer step on an ordinary character outside quotes: it joins the current token. */
  lemma LexPlain(s: string, i: nat, w: string, acc: seq<Token>)
    requires i < |s| && s[i] != ',' && s[i] != '\'' && s[i] != '"'
    requires w != []
    requires forall k :: 0 <= k < |acc| ==> Keeps(acc[k])
    ensures Lex(s, i, NoQuote, Some(Token(w, false)), acc) == Lex(s, i + 1, NoQuote, Some(Token(w + [s[i]], false)), acc)
  {
  }

  lemma LexPlainFirst(s: string, i: nat, acc: seq<Token>)
    requires i < |s| && s[i] != ',' && s[i] != '\'' && s[i] != '"'
    requires forall k :: 0 <= k < |acc| ==> Keeps(acc[k])
    ensures Lex(s, i, NoQuote, None, acc) == Lex(s, i + 1, NoQuote, Some(Token([s[i]], false)), acc)
  {
    assert "" + [s[i]] == [s[i]];
  }

  /** At the end of the text outside quotes, the pending token is emitted. */
  lemma LexEnd(s: string, cur: Option<Token>, acc: seq<Token>)
    requires cur.Some? ==> Keeps(cur.value)
    requires forall k :: 0 <= k < |acc| ==> Keeps(acc[k])
    ensures Lex(s, |s|, NoQuote, cur, acc) == Some(acc + Pending(cur))
  {
  }

  function TextOf(cur: Option<Token>): string
  {
    if cur.Some? then cur.value.text else ""
  }

  /** The lexer's result outside quotes, as the comma split of the remaining text. */
  predicate LexSplits(s: string, i: nat, cur: Option<Token>, acc: seq<Token>)
    requires i <= |s|
    requires cur.Some? ==> cur.value.text != [] && !cur.value.quoted
    requires forall k :: 0 <= k < |acc| ==> Keeps(acc[k])
  {
    Lex(s, i, NoQuote, cur, acc) == Some(acc + NonEmptyPieces(SplitBy(TextOf(cur) + s[i..], ",")))
  }

  lemma LexSplitsComma(s: string, i: nat, cur: Option<Token>, acc: seq<Token>)
    requires i < |s| && s[i] == ','
    requires cur.Some? ==> cur.value.text != [] && !cur.value.quoted && ',' !in cur.value.text
    requires forall k :: 0 <= k < |acc| ==> Keeps(acc[k])
    requires LexSplits(s, i + 1, None, acc + Pending(cur))
    ensures LexSplits(s, i, cur, acc)
  {
    var w := TextOf(cur);
    var pending := Pending(cur);
    var y := s[i + 1..];
    var rest := NonEmptyPieces(SplitBy(y, ","));
    var full := NonEmptyPieces(SplitBy(w + s[i..], ","));
    assert Lex(s, i, NoQuote, cur, acc) == Some(acc + pending + rest) by {
      LexComma(s, i, cur, acc);
      assert TextOf(None) + y == y;
    }
    assert full == pending + rest by {
      assert pending == if w != [] then [Token(w, false)] else [];
      assert w + s[i..] == w + "," + y;
      PiecesAtComma(w, y);
    }
    assert acc + pending + rest == acc + full;
  }

  lemma LexSplitsPlain(s: string, i: nat, cur: Option<Token>, acc: seq<Token>)
    requires i < |s| && s[i] != ',' && s[i] != '\'' && s[i] != '"'
    requires cur.Some? ==> cur.value.text != [] && !cur.value.quoted
    requires forall k :: 0 <= k < |acc| ==> Keeps(acc[k])
    requires LexSplits(s, i + 1, Some(Token(TextOf(cur) + [s[i]], false)), acc)
    ensures LexSplits(s, i, cur, acc)
  {
    var w := TextOf(cur);
    if cur.Some? {
      LexPlain(s, i, w, acc);
    } else {
      LexPlainFirst(s, i, acc);
      assert w + [s[i]] == [s[i]];
    }
    assert (w + [s[i]]) + s[i + 1..] == w + s[i..];
  }

  lemma LexSplitsEnd(s: string, cur: Option<Token>, acc: seq<Token>)
    requires cur.Some? ==> cur.value.text != [] && !cur.value.quoted && ',' !in cur.value.text
    requires forall k :: 0 <= k < |acc| ==> Keeps(acc[k])
    ensures LexSplits(s, |s|, cur, acc)
  {
    var w := TextOf(cur);
    LexEnd(s, cur, acc);
    assert w + s[|s|..] == w;
    PiecesWithoutComma(w);
  }

  lemma {:induction false} LexWithoutQuotes(s: string, i: nat, cur: Option<Token>, acc: seq<Token>)
    requires i <= |s| && NoQuotes(s[i..])
    requires cur.Some? ==> cur.value.text != [] && !cur.value.quoted && ',' !in cur.value.text
    requires forall k :: 0 <= k < |acc| ==> Keeps(acc[k])
    ensures LexSplits(s, i, cur, acc)
    decreases |s| - i
  {
    if i == |s| {
      LexSplitsEnd(s, cur, acc);
    } else {
      assert s[i..] == [s[i]] + s[i + 1..];
      assert NoQuotes(s[i + 1..]);
      if s[i] == ',' {
        LexWithoutQuotes(s, i + 1, None, acc + Pending(cur));
        LexSplitsComma(s, i, cur, acc);
      } else {
        var next := Some(Token(TextOf(cur) + [s[i]], false));
        LexWithoutQuotes(s, i + 1, next, acc);
        LexSplitsPlain(s, i, cur, acc);
      }
    }
  }

  /** Without quotes, tokenizing is splitting at every comma and dropping the empty pieces. */
  lemma TokenizeWithoutQuotes(s: string)
    requires NoQuotes(s)
    ensures Tokenize(s) == Some(NonEmptyPieces(SplitBy(s, ",")))
  {
    assert s[0..] == s;
    LexWithoutQuotes(s, 0, None, []);
    var pieces := NonEmptyPieces(SplitBy(s, ","));
    assert TextOf(None) + s == s;
    assert [] + pieces == pieces;
    assert Lex(s, 0, NoQuote, None, []) == Some(pieces);
  }

  function QuoteOf(st: ScanState): Quote
  {
    if st.inSingle then InSingle else if st.inDouble then InDouble else NoQuote
  }

  /** The scan's two flags and the lexer's quote state follow the same automaton. */
  lemma {:induction false} ScanQuotesAgree(st: ScanState, s: string)
    requires !(st.inSingle && st.inDouble)
    ensures !(ScanAll(st, s).inSingle && ScanAll(st, s).inDouble)
    ensures QuoteOf(ScanAll(st, s)) == QuoteAfter(QuoteOf(st), s)
    decreases |s|
  {
    if s != [] {
      ScanQuotesAgree(ScanStep(st, s[0]), s[1..]);
    }
  }

  lemma {:induction false} QuoteAfterConcat(q: Quote, x: string, y: string)
    ensures QuoteAfter(q, x + y) == QuoteAfter(QuoteAfter(q, x), y)
    decreases |x|
  {
    if x == [] {
      assert x + y == y;
    } else {
      assert (x + y)[0] == x[0];
      assert (x + y)[1..] == x[1..] + y;
      QuoteAfterConcat(QuoteStep(q, x[0]), x[1..], y);
    }
  }

  lemma {:induction false} QuoteAfterSpaces(q: Quote, s: string)
    requires AllSpace(s)
    ensures QuoteAfter(q, s) == q
    decreases |s|
  {
    if s != [] {
      QuoteAfterSpaces(q, s[1..]);
    }
  }

  /** Where the scan closes, the last character was read outside any quote. */
  lemma CloseOutsideQuotes(t: string, from: nat, e: nat)
    requires from <= |t| && FirstClose(t, from, from) == Some(e)
    ensures from < e
    ensures !ScanAll(Open, t[from..e - 1]).inSingle && !ScanAll(Open, t[from..e - 1]).inDouble
  {
    assert t[from..from] == [];
    var x := t[from..e - 1];
    assert t[from..e] == x + [t[e - 1]];
    ScanAllSnoc(Open, x, t[e - 1]);
    assert Depth(t, from, e - 1) != 0;
  }

  lemma QuoteAfterPadded(head: string, m: string, tail: string)
    requires AllSpace(head) && AllSpace(tail)
    ensures QuoteAfter(NoQuote, head + m + tail) == QuoteAfter(NoQuote, m)
  {
    QuoteAfterConcat(NoQuote, head + m, tail);
    QuoteAfterConcat(NoQuote, head, m);
    QuoteAfterSpaces(NoQuote, head);
    QuoteAfterSpaces(QuoteAfter(NoQuote, m), tail);
  }

  /** Text whose quotes all close still has them all closed once stripped, so it tokenizes. */
  lemma StrippedQuotesClosed(x: string)
    requires QuoteAfter(NoQuote, x) == NoQuote
    ensures Tokenize(Strip(x)).Some?
  {
    var a := StripSplits(x);
    QuoteAfterPadded(x[..a], Strip(x), x[a + |Strip(x)|..]);
  }

  /** On the argument text the scan accepted, the tokenizer never reaches its unclosed-quote error. */
  lemma ArgsQuotesClosed(t: string, from: nat, e: nat)
    requires from <= |t| && FirstClose(t, from, from) == Some(e)
    ensures from < e
    ensures Tokenize(Strip(t[from..e - 1])).Some?
  {
    CloseOutsideQuotes(t, from, e);
    ScanQuotesAgree(Open, t[from..e - 1]);
    StrippedQuotesClosed(t[from..e - 1]);
  }

  // ---------------------------------------------------------------------------
  // Sorting tokens into positional and keyword arguments.
  // ---------------------------------------------------------------------------

  /** One token after stripping: a keyword argument when it has an '=', else a positional one. */
  datatype Arg = Positional(value: Value) | Keyword(key: string, value: Value)

  /** A token with an '=' splits at the first one into a stripped key and a stripped, coerced value. */
  function Classify(token: string): Arg
  {
    var tok := Strip(token);
    var eq := FindChar(tok, '=');
    if eq >= 0 then Keyword(Strip(tok[..eq]), Coerce(Strip(tok[eq + 1..])))
    else Positional(Coerce(tok))
  }

  function ClassifyAll(tokens: seq<string>): (r: seq<Arg>)
    ensures |r| == |tokens|
  {
    if tokens == [] then [] else ClassifyAll(tokens[..|tokens| - 1]) + [Classify(tokens[|tokens| - 1])]
  }

  /**
   * A token `k=v` whose key part has no '=' is a keyword argument: the key and the value are
   * stripped, the value is coerced, and any further '=' stays in the value.
   */
  lemma ClassifyKeyword(k: string, v: string)
    requires '=' !in k
    ensures Classify(k + "=" + v) == Keyword(Strip(k), Coerce(Strip(v)))
  {
    var l := LStrip(k);
    var r := RStrip(v);
    var m := l + "=" + r;
    StripKeywordText(k, v);
    var e := FindChar(m, '=');
    assert m[|l|] == '=';
    assert e == |l|;
    assert m[..|l|] == l;
    assert m[|l| + 1..] == r;
    assert LStrip(l) == l;
    StripRStrip(v);
  }

  /** Stripping `k=v` strips only the front of the key and the back of the value. */
  lemma StripKeywordText(k: string, v: string)
    requires '=' !in k
    ensures Strip(k + "=" + v) == LStrip(k) + "=" + RStrip(v)
    ensures '=' !in LStrip(k)
  {
    var l := LStrip(k);
    var r := RStrip(v);
    LStripSplits(k);
    RStripSplits(v);
    var w1 := k[..|k| - |l|];
    var w2 := v[|r|..];
    assert k == w1 + l;
    assert v == r + w2;
    PaddedKeyword(w1, l, r, w2);
    forall i | 0 <= i < |l|
      ensures l[i] != '='
    {
      assert l[i] == k[|k| - |l| + i];
    }
  }

  lemma PaddedKeyword(w1: string, l: string, r: string, w2: string)
    requires AllSpace(w1) && AllSpace(w2)
    requires l == [] || !IsSpace(l[0])
    requires r == [] || !IsSpace(r[|r| - 1])
    ensures Strip((w1 + l) + "=" + (r + w2)) == l + "=" + r
  {
    var m := l + "=" + r;
    assert (w1 + l) + "=" + (r + w2) == w1 + m + w2;
    assert m[0] == if l == [] then '=' else l[0];
    assert m[|m| - 1] == if r == [] then '=' else r[|r| - 1];
    StripOfPadded(w1, m, w2);
  }

  /** A token with no '=' once stripped is a positional argument: the stripped token, coerced. */
  lemma ClassifyPositional(t: string)
    requires '=' !in Strip(t)
    ensures Classify(t) == Positional(Coerce(Strip(t)))
  {
  }

  /** The arguments in the order the loop meets them; a later keyword overwrites an earlier one. */
  function Collect(items: seq<Arg>): (seq<Value>, map<string, Value>)
  {
    if items == [] then ([], map[])
    else
      var (args, kwargs) := Collect(items[..|items| - 1]);
      match items[|items| - 1]
      case Positional(v) => (args + [v], kwargs)
      case Keyword(key, v) => (args, kwargs[key := v])
  }

  /** Reference: the positional values, front to back. */
  function PositionalValues(items: seq<Arg>): seq<Value>
  {
    if items == [] then []
    else (if items[0].Positional? then [items[0].value] else []) + PositionalValues(items[1..])
  }

  /** Item `i` is the last keyword item with key `key`. */
  predicate LastWithKey(items: seq<Arg>, key: string, i: int)
  {
    0 <= i < |items| && items[i].Keyword? && items[i].key == key
    && forall j :: i < j < |items| ==> !(items[j].Keyword? && items[j].key == key)
  }

  lemma {:induction false} PositionalSnoc(xs: seq<Arg>, x: Arg)
    ensures PositionalValues(xs + [x]) == PositionalValues(xs) + PositionalValues([x])
  {
    if xs == [] {
      assert xs + [x] == [x];
    } else {
      var ys := xs + [x];
      assert ys[0] == xs[0];
      assert ys[1..] == xs[1..] + [x];
      PositionalSnoc(xs[1..], x);
    }
  }

  /** Positional arguments are exactly the items without '=', in their original order. */
  lemma {:induction false} CollectPositional(items: seq<Arg>)
    ensures Collect(items).0 == PositionalValues(items)
  {
    if items != [] {
      var init := items[..|items| - 1];
      CollectPositional(init);
      assert items == init + [items[|items| - 1]];
      PositionalSnoc(init, items[|items| - 1]);
    }
  }

  /** The keyword map has exactly the keys that occur, each bound to the value of its last occurrence. */
  lemma {:induction false} CollectKeywords(items: seq<Arg>)
    ensures forall key :: key in Collect(items).1 <==> exists i :: 0 <= i < |items| && items[i] == Keyword(key, items[i].value)
    ensures forall key, i :: LastWithKey(items, key, i) ==> key in Collect(items).1 && Collect(items).1[key] == items[i].value
  {
    if items != [] {
      var n := |items| - 1;
      var init := items[..n];
      CollectKeywords(init);
      forall key
        ensures key in Collect(items).1 <==> exists i :: 0 <= i < |items| && items[i] == Keyword(key, items[i].value)
      {
        if key in Collect(init).1 {
          var i :| 0 <= i < |init| && init[i] == Keyword(key, init[i].value);
          assert items[i] == init[i];
        }
        if exists i :: 0 <= i < |items| && items[i] == Keyword(key, items[i].value) {
          var i :| 0 <= i < |items| && items[i] == Keyword(key, items[i].value);
          if i < n {
            assert init[i] == items[i];
          }
        }
      }
      forall key, i | LastWithKey(items, key, i)
        ensures key in Collect(items).1 && Collect(items).1[key] == items[i].value
      {
        if i < n {
          assert LastWithKey(init, key, i);
        }
      }
    }
  }

  // ---------------------------------------------------------------------------
  // The whole line.
  // ---------------------------------------------------------------------------

  /** The tool name: the stripped text before '(' or, with no '(' at all, before the last character. */
  function CallName(t: string): string
    requires t != []
  {
    var start := FindChar(t, '(');
    Strip(if start >= 0 then t[..start] else t[..|t| - 1])
  }

  /** Where the argument scan starts: just after the first '(' (or at 0 when there is none). */
  function ArgsFrom(t: string): (r: nat)
    ensures r <= |t|
  {
    FindChar(t, '(') + 1
  }

  /** The call when the text has a parenthesis: None when the scan never closes. */
  function ParensCall(t: string, name: string, from: nat): Option<Call>
    requires from <= |t|
  {
    match FirstClose(t, from, from)
    case None => None
    case Some(e) => Some(ClosedCall(t, name, from, e))
  }

  /** The call once the scan closed at `e`: the arguments are the stripped text between the parentheses. */
  function ClosedCall(t: string, name: string, from: nat, e: nat): Call
    requires from <= |t| && FirstClose(t, from, from) == Some(e)
  {
    ArgsQuotesClosed(t, from, e);
    CallOf(name, Strip(t[from..e - 1]))
  }

  lemma ClosedCallIs(t: string, name: string, from: nat, e: nat)
    requires from <= |t| && FirstClose(t, from, from) == Some(e)
    ensures from < e && Tokenize(Strip(t[from..e - 1])).Some?
    ensures ClosedCall(t, name, from, e) == CallOf(name, Strip(t[from..e - 1]))
  {
    ArgsQuotesClosed(t, from, e);
  }

  /** The call denoted by the stripped text after the marker. */
  function ActionOfText(t: string): Option<Call>
  {
    if '(' !in t && ')' !in t then Some(Call(t, [], map[]))
    else ParensCall(t, CallName(t), ArgsFrom(t))
  }

  /** The call built from the stripped argument text: no arguments when it is empty. */
  function CallOf(name: string, inner: string): Call
    requires Tokenize(inner).Some?
  {
    if inner == [] then Call(name, [], map[])
    else
      var (args, kwargs) := Collect(ClassifyAll(Texts(Tokenize(inner).value)));
      Call(name, args, kwargs)
  }

  /** The first line that starts with the marker, or None exactly when no line does. */
  function FirstActionLine(lines: seq<string>): (r: Option<string>)
    ensures r.Some? ==> StartsWith(r.value, Marker)
    ensures r.None? <==> forall i :: 0 <= i < |lines| ==> !StartsWith(lines[i], Marker)
  {
    if lines == [] then None
    else if StartsWith(lines[0], Marker) then Some(lines[0])
    else
      assert forall i :: 1 <= i < |lines| ==> lines[i] == lines[1..][i - 1];
      FirstActionLine(lines[1..])
  }

  /** The line chosen is the first one that starts with the marker: later matches are never reached. */
  lemma {:induction false} FirstActionLineIsFirst(lines: seq<string>, i: nat)
    requires i < |lines| && StartsWith(lines[i], Marker)
    requires forall j :: 0 <= j < i ==> !StartsWith(lines[j], Marker)
    ensures FirstActionLine(lines) == Some(lines[i])
  {
    if i > 0 {
      assert lines[i] == lines[1..][i - 1];
      assert forall j :: 0 <= j < i - 1 ==> lines[1..][j] == lines[j + 1];
      FirstActionLineIsFirst(lines[1..], i - 1);
    }
  }

  /** The call on the first line of the stripped text that starts with the marker, if any. */
  function ActionOf(text: string): Option<Call>
  {
    match FirstActionLine(SplitBy(Strip(text), "\n"))
    case None => None
    case Some(line) => ActionOfText(Strip(line[|Marker|..]))
  }

  // ---------------------------------------------------------------------------
  // Properties of the parser as a whole.
  // ---------------------------------------------------------------------------

  /** Inside an open quote, every character up to the closing one joins the token, commas included. */
  lemma {:induction false} LexInsideQuote(s: string, i: nat, j: nat, q: Quote, text: string, acc: seq<Token>)
    requires i <= j <= |s| && q != NoQuote
    requires forall k :: i <= k < j ==> s[k] != (if q == InSingle then '\'' else '"')
    requires forall k :: 0 <= k < |acc| ==> Keeps(acc[k])
    ensures Lex(s, i, q, Some(Token(text, true)), acc) == Lex(s, j, q, Some(Token(text + s[i..j], true)), acc)
    decreases j - i
  {
    if i < j {
      assert Lex(s, i, q, Some(Token(text, true)), acc) == Lex(s, i + 1, q, Some(Token(text + [s[i]], true)), acc);
      LexInsideQuote(s, i + 1, j, q, text + [s[i]], acc);
      assert (text + [s[i]]) + s[i + 1..j] == text + s[i..j];
    } else {
      assert text + s[i..j] == text;
    }
  }

  /** A quoted argument comes back whole, without its quotes, whatever commas or parentheses it holds. */
  lemma TokenizeQuoted(w: string, c: char)
    requires c == '\'' || c == '"'
    requires c !in w
    ensures Tokenize([c] + w + [c]) == Some([Token(w, true)])
  {
    var s := [c] + w + [c];
    var q := if c == '\'' then InSingle else InDouble;
    var n := |w| + 1;
    assert s[0..] == s;
    assert Lex(s, 0, NoQuote, None, []) == Lex(s, 1, q, Some(Token("", true)), []);
    LexInsideQuote(s, 1, n, q, "", []);
    assert "" + s[1..n] == w;
    assert Lex(s, n, q, Some(Token(w, true)), []) == Lex(s, n + 1, NoQuote, Some(Token(w, true)), []);
    assert Lex(s, n + 1, NoQuote, Some(Token(w, true)), []) == Some([] + [Token(w, true)]);
    assert [] + [Token(w, true)] == [Token(w, true)];
  }

  /** A step only ever appends to the tokens already produced. */
  lemma LexStepAcc(q: Quote, cur: Option<Token>, acc: seq<Token>, c: char)
    requires q != NoQuote ==> cur.Some?
    ensures var m := LexStep(q, cur, [], c);
      LexStep(q, cur, acc, c) == (m.0, m.1, acc + m.2)
  {
    assert acc + [] == acc;
    assert [] + Pending(cur) == Pending(cur);
  }

  /** Tokens already produced in front are carried through unchanged, ahead of all later ones. */
  lemma {:induction false} LexAcc(s: string, i: nat, q: Quote, cur: Option<Token>, front: seq<Token>, acc: seq<Token>)
    requires i <= |s|
    requires q != NoQuote ==> cur.Some? && cur.value.quoted
    requires cur.Some? ==> Keeps(cur.value)
    requires forall k :: 0 <= k < |front| ==> Keeps(front[k])
    requires forall k :: 0 <= k < |acc| ==> Keeps(acc[k])
    ensures forall k :: 0 <= k < |front + acc| ==> Keeps((front + acc)[k])
    ensures Lex(s, i, q, cur, front + acc).Some? ==>
      Lex(s, i, q, cur, front + acc).value == front + Lex(s, i, q, cur, acc).value
    decreases |s| - i
  {
    assert forall k :: 0 <= k < |front + acc| ==> Keeps((front + acc)[k]) by {
      forall k | 0 <= k < |front + acc|
        ensures Keeps((front + acc)[k])
      {
        if k < |front| {
          assert (front + acc)[k] == front[k];
        } else {
          assert (front + acc)[k] == acc[k - |front|];
        }
      }
    }
    if i < |s| {
      var m := LexStep(q, cur, [], s[i]);
      LexStepAcc(q, cur, front + acc, s[i]);
      LexStepAcc(q, cur, acc, s[i]);
      assert (front + acc) + m.2 == front + (acc + m.2);
      LexAcc(s, i + 1, m.0, m.1, front, acc + m.2);
    }
  }

  /** The lexer reads only the text from its position on: text in front of it changes nothing. */
  lemma {:induction false} LexShift(p: string, s: string, i: nat, q: Quote, cur: Option<Token>, acc: seq<Token>)
    requires i <= |s|
    requires q != NoQuote ==> cur.Some? && cur.value.quoted
    requires cur.Some? ==> Keeps(cur.value)
    requires forall k :: 0 <= k < |acc| ==> Keeps(acc[k])
    ensures Lex(p + s, |p| + i, q, cur, acc) == Lex(s, i, q, cur, acc)
    decreases |s| - i
  {
    if i < |s| {
      assert (p + s)[|p| + i] == s[i];
      var n := LexStep(q, cur, acc, s[i]);
      LexShift(p, s, i + 1, n.0, n.1, n.2);
    }
  }

  /** Up to a comma that lies outside quotes, lexing `x + "," + y` is lexing `x`; the comma then ends the pending token. */
  lemma {:induction false} LexUntilComma(x: string, y: string, i: nat, q: Quote, cur: Option<Token>, acc: seq<Token>)
    requires i <= |x| && QuoteAfter(q, x[i..]) == NoQuote
    requires q != NoQuote ==> cur.Some? && cur.value.quoted
    requires cur.Some? ==> Keeps(cur.value)
    requires forall k :: 0 <= k < |acc| ==> Keeps(acc[k])
    ensures Lex(x, i, q, cur, acc).Some?
    ensures Lex(x + "," + y, i, q, cur, acc) == Lex(x + "," + y, |x| + 1, NoQuote, None, Lex(x, i, q, cur, acc).value)
    decreases |x| - i
  {
    var s := x + "," + y;
    if i == |x| {
      assert x[i..] == [];
      assert s[i] == ',';
    } else {
      assert s[i] == x[i];
      assert x[i..][1..] == x[i + 1..];
      var n := LexStep(q, cur, acc, x[i]);
      LexUntilComma(x, y, i + 1, n.0, n.1, n.2);
    }
  }

  /**
   * A comma outside quotes splits the token list: the tokens of the text before it, then the
   * tokens of the text after it, and an error exactly when the text after it leaves a quote open.
   */
  lemma TokenizeAtComma(x: string, y: string)
    requires QuoteAfter(NoQuote, x) == NoQuote
    ensures Tokenize(x).Some?
    ensures Tokenize(x + "," + y).Some? <==> Tokenize(y).Some?
    ensures Tokenize(y).Some? ==> Tokenize(x + "," + y).value == Tokenize(x).value + Tokenize(y).value
  {
    var s := x + "," + y;
    assert x[0..] == x;
    LexUntilComma(x, y, 0, NoQuote, None, []);
    var t := Lex(x, 0, NoQuote, None, []).value;
    LexAcc(s, |x| + 1, NoQuote, None, t, []);
    assert t + [] == t;
    assert s == (x + ",") + y;
    LexShift(x + ",", y, 0, NoQuote, None, []);
  }

  /**
   * The text shlex makes of one argument read from quote state `q`: every quote character that
   * opens or closes a quotation is dropped, every other character is kept in order.
   */
  function Unquoted(q: Quote, s: string): (r: string)
    ensures |r| <= |s|
    decreases |s|
  {
    if s == [] then []
    else if QuoteStep(q, s[0]) != q then Unquoted(QuoteStep(q, s[0]), s[1..])
    else [s[0]] + Unquoted(q, s[1..])
  }

  /** Read from quote state `q`, the text has no comma outside quotes: it is a single argument. */
  predicate OneArg(q: Quote, s: string)
    decreases |s|
  {
    s == [] || (!(q == NoQuote && s[0] == ',') && OneArg(QuoteStep(q, s[0]), s[1..]))
  }

  /** The token held after reading `s` from `(q, cur)`, when no comma outside quotes is met. */
  function PieceToken(q: Quote, cur: Option<Token>, s: string): Option<Token>
  {
    if cur.None? && s == [] then None
    else Some(Token(TextOf(cur) + Unquoted(q, s), (cur.Some? && cur.value.quoted) || !NoQuotes(s)))
  }

  /** One lexer step inside an argument moves the quote state as `QuoteStep` does and keeps the token in step with `PieceToken`. */
  lemma PieceTokenStep(q: Quote, cur: Option<Token>, acc: seq<Token>, c: char, rest: string)
    requires q != NoQuote ==> cur.Some? && cur.value.quoted
    requires !(q == NoQuote && c == ',')
    ensures var n := LexStep(q, cur, acc, c);
      n.0 == QuoteStep(q, c) && n.2 == acc && PieceToken(n.0, n.1, rest) == PieceToken(q, cur, [c] + rest)
  {
    var s := [c] + rest;
    assert s[0] == c && s[1..] == rest;
    assert NoQuotes(s) <==> c != '\'' && c != '"' && NoQuotes(rest) by {
      assert forall d :: d in s <==> d == c || d in rest;
    }
    var n := LexStep(q, cur, acc, c);
    if q != NoQuote {
      if QuoteStep(q, c) == q {
        assert TextOf(n.1) + Unquoted(q, rest) == TextOf(cur) + ([c] + Unquoted(q, rest));
      }
    } else if c != '\'' && c != '"' {
      assert TextOf(n.1) + Unquoted(q, rest) == TextOf(cur) + ([c] + Unquoted(q, rest));
    }
  }

  /** Lexing an argument with no comma outside quotes ends with its one token pending. */
  lemma {:induction false} LexPiece(s: string, i: nat, q: Quote, cur: Option<Token>, acc: seq<Token>)
    requires i <= |s| && OneArg(q, s[i..]) && QuoteAfter(q, s[i..]) == NoQuote
    requires q != NoQuote ==> cur.Some? && cur.value.quoted
    requires cur.Some? ==> Keeps(cur.value)
    requires forall k :: 0 <= k < |acc| ==> Keeps(acc[k])
    ensures Lex(s, i, q, cur, acc) == Some(acc + Pending(PieceToken(q, cur, s[i..])))
    decreases |s| - i
  {
    if i == |s| {
      assert s[i..] == [];
      assert TextOf(cur) + "" == TextOf(cur);
    } else {
      var c := s[i];
      assert s[i..] == [c] + s[i + 1..];
      var n := LexStep(q, cur, acc, c);
      PieceTokenStep(q, cur, acc, c, s[i + 1..]);
      LexPiece(s, i + 1, n.0, n.1, n.2);
    }
  }

  /**
   * An argument with no comma outside quotes, whose quotes all close, is one token: its text
   * without the quote characters, marked quoted when it held a quote. An empty argument gives none.
   */
  lemma TokenizePiece(p: string)
    requires OneArg(NoQuote, p) && QuoteAfter(NoQuote, p) == NoQuote
    ensures Tokenize(p) == if p == [] then Some([]) else Some([Token(Unquoted(NoQuote, p), !NoQuotes(p))])
  {
    assert p[0..] == p;
    LexPiece(p, 0, NoQuote, None, []);
    if p != [] {
      var t := Token(Unquoted(NoQuote, p), !NoQuotes(p));
      assert "" + Unquoted(NoQuote, p) == Unquoted(NoQuote, p);
      assert PieceToken(NoQuote, None, p) == Some(t);
      assert [] + Pending(Some(t)) == [t];
    } else {
      assert PieceToken(NoQuote, None, p) == None;
      assert [] + Pending(None) == [];
    }
  }

  lemma {:induction false} UnquotedConcat(q: Quote, x: string, y: string)
    ensures Unquoted(q, x + y) == Unquoted(q, x) + Unquoted(QuoteAfter(q, x), y)
    ensures OneArg(q, x + y) <==> OneArg(q, x) && OneArg(QuoteAfter(q, x), y)
    decreases |x|
  {
    if x == [] {
      assert x + y == y;
    } else {
      assert (x + y)[0] == x[0];
      assert (x + y)[1..] == x[1..] + y;
      UnquotedConcat(QuoteStep(q, x[0]), x[1..], y);
      QuoteAfterConcat(q, x, y);
    }
  }

  /** Plain text, with no quote and no comma, is one argument that reads as itself. */
  lemma {:induction false} PlainUnquoted(k: string)
    requires NoQuotes(k) && ',' !in k
    ensures Unquoted(NoQuote, k) == k && OneArg(NoQuote, k) && QuoteAfter(NoQuote, k) == NoQuote
    decreases |k|
  {
    if k != [] {
      assert k[0] in k;
      assert forall d :: d in k[1..] ==> d in k;
      PlainUnquoted(k[1..]);
    }
  }

  /** Inside a quotation, text without its closing quote reads as itself and leaves the quotation open. */
  lemma {:induction false} InsideUnquoted(q: Quote, w: string)
    requires q != NoQuote && (if q == InSingle then '\'' else '"') !in w
    ensures Unquoted(q, w) == w && OneArg(q, w) && QuoteAfter(q, w) == q
    decreases |w|
  {
    if w != [] {
      assert w[0] in w;
      assert forall d :: d in w[1..] ==> d in w;
      InsideUnquoted(q, w[1..]);
    }
  }

  /**
   * Quotes in the middle of an argument are removed too: plain text `k` followed by a quoted `w`
   * is the one token `k + w`, as with `x="it's fine"`.
   */
  lemma TokenizeKeyQuoted(k: string, w: string, c: char)
    requires c == '\'' || c == '"'
    requires NoQuotes(k) && ',' !in k && c !in w
    ensures Tokenize(k + [c] + w + [c]) == Some([Token(k + w, true)])
  {
    var q := if c == '\'' then InSingle else InDouble;
    var quoted := [c] + w + [c];
    assert k + [c] + w + [c] == k + quoted;
    PlainUnquoted(k);
    InsideUnquoted(q, w);
    assert quoted == [c] + (w + [c]);
    assert quoted[0] == c && quoted[1..] == w + [c];
    UnquotedConcat(q, w, [c]);
    UnquotedConcat(NoQuote, k, quoted);
    QuoteAfterConcat(NoQuote, k, quoted);
    QuoteAfterConcat(q, w, [c]);
    assert Unquoted(NoQuote, quoted) == w by {
      assert Unquoted(NoQuote, quoted) == Unquoted(q, w + [c]);
      assert Unquoted(q, [c]) == [];
      assert w + [] == w;
    }
    assert c in k + quoted;
    TokenizePiece(k + quoted);
  }

  /** `x="it's fine"` is the single token `x=it's fine`: the apostrophe inside the double quotes is an ordinary character. */
  lemma TokenizeItsFine()
    ensures Tokenize("x=\"it's fine\"") == Some([Token("x=it's fine", true)])
  {
    var k, w := "x=", "it's fine";
    assert NoQuotes(k) && ',' !in k && '"' !in w;
    assert "x=\"it's fine\"" == k + ['"'] + w + ['"'];
    assert "x=it's fine" == k + w;
    TokenizeKeyQuoted(k, w, '"');
  }

  /**
   * A keyword whose value is quoted, as in `query="SELECT ..."`, binds the key to the coerced
   * text inside the quotes; commas and parentheses inside them do not split it.
   */
  lemma KeywordQuotedValue(name: string, k: string, w: string, c: char)
    requires c == '\'' || c == '"'
    requires '=' !in k && NoQuotes(k) && ',' !in k && c !in w
    ensures Tokenize(k + "=" + [c] + w + [c]) == Some([Token(k + "=" + w, true)])
    ensures CallOf(name, k + "=" + [c] + w + [c]) == Call(name, [], map[Strip(k) := Coerce(Strip(w))])
  {
    var key := k + "=";
    assert NoQuotes(key) && ',' !in key by {
      assert forall d :: d in key <==> d in k || d == '=';
    }
    TokenizeKeyQuoted(key, w, c);
    var t := k + "=" + w;
    assert Texts([Token(t, true)]) == [t];
    ClassifyKeyword(k, w);
    var item := Keyword(Strip(k), Coerce(Strip(w)));
    assert ClassifyAll([t]) == [item] by {
      assert [t][..0] == [];
    }
    assert Collect([item]) == ([], map[Strip(k) := Coerce(Strip(w))]) by {
      assert [item][..0] == [];
    }
  }

  /** When the text has a '(' but no ')', the scan runs off the end and the result is None. */
  lemma Unterminated(t: string)
    requires '(' in t && ')' !in t
    ensures ActionOfText(t) == None
  {
    var from := ArgsFrom(t);
    var close := FirstClose(t, from, from);
    if close.Some? {
      var e := close.value;
      ScanWithoutClose(Open, t[from..e]);
      assert false;
    }
  }

  /** `NAME(` blank `)`: the stripped name and no arguments. */
  lemma EmptyArgs(name: string, ws: string)
    requires '(' !in name && AllSpace(ws)
    ensures ActionOfText(name + "(" + ws + ")") == Some(Call(Strip(name), [], map[]))
  {
    var t := name + "(" + ws + ")";
    assert t[|name|] == '(';
    assert FindChar(t, '(') == |name| by {
      assert t[..|name|] == name;
    }
    assert CallName(t) == Strip(name) by {
      assert t[..|name|] == name;
    }
    var from := |name| + 1;
    var e := |t|;
    assert t[from..e - 1] == ws;
    forall k | from <= k < e
      ensures Depth(t, from, k) == 1
    {
      assert t[from..k] == ws[..k - from];
      ScanSpaces(Open, ws[..k - from]);
    }
    assert Depth(t, from, e) == 0 by {
      assert t[from..e] == ws + [')'];
      ScanAllSnoc(Open, ws, ')');
      ScanSpaces(Open, ws);
    }
    assert FirstClose(t, from, from) == Some(e);
    StripAllSpace(ws);
    ClosedCallIs(t, Strip(name), from, e);
  }

  lemma BarScan()
    ensures FirstClose("bar)", 0, 0) == Some(4)
  {
    var t := "bar)";
    assert Depth(t, 0, 0) == 1 && Depth(t, 0, 1) == 1 && Depth(t, 0, 2) == 1 && Depth(t, 0, 3) == 1 by {
      assert t[0..0] == [] && t[0..1] == "b" && t[0..2] == "ba" && t[0..3] == "bar";
    }
    assert Depth(t, 0, 4) == 0 by {
      assert t[0..4] == "bar)";
    }
  }

  lemma BarTokens()
    ensures Tokenize("bar") == Some([Token("bar", false)])
  {
    TokenizeWithoutQuotes("bar");
    SplitWithoutComma("bar");
    assert NonEmptyPieces(["bar"]) == [Token("bar", false)] by {
      assert ["bar"][1..] == [];
    }
  }

  lemma BarClassify()
    ensures Classify("bar") == Positional(StrVal("bar"))
  {
    assert Strip("bar") == "bar" by {
      assert Trimmed("bar");
    }
    assert FindChar("bar", '=') == -1;
    CoerceWord("bar");
  }

  /**
   * Quotes are gone before the '=' test: an argument text `'k=v'` is one quoted token, yet it
   * binds the keyword `k` to the coerced `v` rather than passing "k=v" positionally.
   */
  lemma QuotedKeyword(name: string, k: string, v: string, q: char)
    requires q == '\'' || q == '"'
    requires '=' !in k && q !in k && q !in v
    ensures Tokenize([q] + k + "=" + v + [q]) == Some([Token(k + "=" + v, true)])
    ensures CallOf(name, [q] + k + "=" + v + [q]) == Call(name, [], map[Strip(k) := Coerce(Strip(v))])
  {
    var w := k + "=" + v;
    assert q !in w by {
      assert forall i :: 0 <= i < |w| ==> w[i] == (if i < |k| then k[i] else if i == |k| then '=' else v[i - |k| - 1]);
    }
    assert [q] + k + "=" + v + [q] == [q] + w + [q];
    TokenizeQuoted(w, q);
    assert Texts([Token(w, true)]) == [w];
    ClassifyKeyword(k, v);
    var item := Keyword(Strip(k), Coerce(Strip(v)));
    assert ClassifyAll([w]) == [item] by {
      assert [w][..0] == [];
    }
    assert Collect([item]) == ([], map[Strip(k) := Coerce(Strip(v))]) by {
      assert [item][..0] == [];
    }
  }

  /** Argument text that tokenizes to one positional token gives exactly that one argument. */
  lemma CallOfSingle(name: string, inner: string, tok: Token, v: Value)
    requires inner != [] && Tokenize(inner) == Some([tok])
    requires Classify(tok.text) == Positional(v)
    ensures CallOf(name, inner) == Call(name, [v], map[])
  {
    assert Texts([tok]) == [tok.text];
    assert ClassifyAll([tok.text]) == [Positional(v)] by {
      assert [tok.text][..0] == [];
    }
    assert Collect([Positional(v)]) == ([v], map[]) by {
      assert [Positional(v)][..0] == [];
      assert [] + [v] == [v];
    }
  }

  lemma BarNameAndStart()
    ensures CallName("bar)") == "bar" && ArgsFrom("bar)") == 0
    ensures Strip("bar)"[0..3]) == "bar"
  {
    var t := "bar)";
    assert FindChar(t, '(') == -1;
    assert t[..3] == "bar" && t[0..3] == "bar";
    assert Trimmed("bar");
  }

  /** A line with ')' but no '(' takes the not-found path: the name is the text minus its last character, and the scan runs from the start. */
  lemma CloseWithoutOpen()
    ensures ActionOfText("bar)") == Some(Call("bar", [StrVal("bar")], map[]))
  {
    var t := "bar)";
    BarNameAndStart();
    BarScan();
    assert ActionOfText(t) == Some(ClosedCall(t, "bar", 0, 4));
    assert ClosedCall(t, "bar", 0, 4) == CallOf("bar", "bar") by {
      ClosedCallIs(t, "bar", 0, 4);
    }
    BarTokens();
    BarClassify();
    CallOfSingle("bar", "bar", Token("bar", false), StrVal("bar"));
  }

  /** The depth scan, step by step. */
  method FindClose(t: string, from: nat) returns (closed: bool, e: nat)
    requires from <= |t|
    ensures closed <==> FirstClose(t, from, from).Some?
    ensures closed ==> e == FirstClose(t, from, from).value
  {
    var depth := 1;
    var inSingle := false;
    var inDouble := false;
    e := from;
    while e < |t| && depth > 0
      invariant from <= e <= |t|
      invariant ScanAll(Open, t[from..e]) == ScanState(depth, inSingle, inDouble)
      invariant depth >= 0
      invariant FirstClose(t, from, e) == FirstClose(t, from, from)
    {
      var c := t[e];
      if c == '\'' && !inDouble {
        inSingle := !inSingle;
      } else if c == '"' && !inSingle {
        inDouble := !inDouble;
      }
      if !inSingle && !inDouble {
        if c == '(' {
          depth := depth + 1;
        } else if c == ')' {
          depth := depth - 1;
        }
      }
      ScanAllSnoc(Open, t[from..e], c);
      assert t[from..e + 1] == t[from..e] + [c];
      e := e + 1;
    }
    closed := depth == 0;
  }

  lemma CollectSnoc(items: seq<Arg>, x: Arg)
    ensures Collect(items + [x]) == match x
      case Positional(v) => (Collect(items).0 + [v], Collect(items).1)
      case Keyword(key, v) => (Collect(items).0, Collect(items).1[key := v])
  {
    assert (items + [x])[..|items|] == items;
  }

  lemma ClassifySnoc(tokens: seq<string>, i: nat)
    requires i < |tokens|
    ensures ClassifyAll(tokens[..i + 1]) == ClassifyAll(tokens[..i]) + [Classify(tokens[i])]
  {
    assert tokens[..i + 1][..i] == tokens[..i];
  }

  /** One token: stripped, split at its first '=' into key and value, the value coerced. */
  method ClassifyToken(token: string) returns (item: Arg)
    ensures item == Classify(token)
  {
    var tok := Strip(token);
    var eq := FindChar(tok, '=');
    if eq >= 0 {
      var key := Strip(tok[..eq]);
      var val := Strip(tok[eq + 1..]);
      item := Keyword(key, Coerce(val));
    } else {
      item := Positional(Coerce(tok));
    }
  }

  /** The token loop: positional values are appended, keyword values stored under their key. */
  method CollectArgs(tokens: seq<string>) returns (args: seq<Value>, kwargs: map<string, Value>)
    ensures (args, kwargs) == Collect(ClassifyAll(tokens))
  {
    args := [];
    kwargs := map[];
    for i := 0 to |tokens|
      invariant (args, kwargs) == Collect(ClassifyAll(tokens[..i]))
    {
      ClassifySnoc(tokens, i);
      var item := ClassifyToken(tokens[i]);
      CollectSnoc(ClassifyAll(tokens[..i]), item);
      match item {
        case Keyword(key, v) => kwargs := kwargs[key := v];
        case Positional(v) => args := args + [v];
      }
    }
    assert tokens[..|tokens|] == tokens;
  }

  /** One action text (the marker already removed and the rest stripped), step by step. */
  method ParseActionText(t: string) returns (r: Option<Call>)
    ensures r == ActionOfText(t)
  {
    if '(' !in t && ')' !in t {
      return Some(Call(t, [], map[]));
    }
    r := ParseParens(t, CallName(t), ArgsFrom(t));
  }

  /** The scan for the matching ')' and the arguments before it. */
  method ParseParens(t: string, name: string, from: nat) returns (r: Option<Call>)
    requires from <= |t|
    ensures r == ParensCall(t, name, from)
  {
    var closed, e := FindClose(t, from);
    if !closed {
      assert FirstClose(t, from, from) == None;
      return None;
    }
    ClosedCallIs(t, name, from, e);
    var call := BuildCall(name, Strip(t[from..e - 1]));
    return Some(call);
  }

  method BuildCall(name: string, inner: string) returns (c: Call)
    requires Tokenize(inner).Some?
    ensures c == CallOf(name, inner)
  {
    if inner == [] {
      return Call(name, [], map[]);
    }
    var args, kwargs := CollectArgs(Texts(Tokenize(inner).value));
    return Call(name, args, kwargs);
  }

  /** Python's `parse_action`: the first line that starts with the marker decides the result. */
  method ParseAction(text: string) returns (r: Option<Call>)
    ensures r == ActionOf(text)
  {
    var lines := SplitBy(Strip(text), "\n");
    for i := 0 to |lines|
      invariant FirstActionLine(lines[i..]) == FirstActionLine(lines)
    {
      var line := lines[i];
      if StartsWith(line, Marker) {
        r := ParseActionText(Strip(line[|Marker|..]));
        return;
      }
      assert lines[i..][1..] == lines[i + 1..];
    }
    return None;
  }
}

=== FILE: agent_loop.dfy ===
// The agent's ReAct control loop (AuditAgent.run). The language model is an oracle from the
// transcript so far to its reply, so every step is a deterministic function of the question,
// the oracle and the agent's tools. Run keeps the source's running transcript and step
// history as out-parameters so that their shape can be stated; the source returns only the
// answer.

module AgentLoop {
  import opened Text
  import opened ActionParser
  import opened ToolRegistry

  datatype Role = System | User | Assistant

  datatype Message = Message(role: Role, content: string)

  /** One executed action: the tool's name and the dispatcher's answer. */
  datatype ToolCall = ToolCall(tool: string, result: string)

  /** The history entry of one non-final step. */
  datatype StepRecord = StepRecord(thought: string, tools: seq<ToolCall>)

  /** The language model: its reply to the transcript so far. */
  type Oracle = seq<Message> -> string

  const MaxActionsPerStep: nat := 5
  const DefaultMaxSteps: int := 20
  const ThoughtTag: string := "thought:"
  const FinalMarker: string := "FINAL ANSWER:"
  const ObservationsHeader: string := "OBSERVATIONS:\n"
  const NextStepRequest: string :=
    "\n\nBased on these observations, what is your next step? " +
    "If done, provide FINAL ANSWER. Do NOT include ACTION lines if concluding."
  const CorrectivePrompt: string := "Please use ACTION: tool_name(arguments)" + " or provide your FINAL ANSWER:"

  function Lines(reply: string): seq<string>
  {
    SplitBy(reply, "\n")
  }

  // ---------------------------------------------------------------------------
  // The thought.
  // ---------------------------------------------------------------------------

  /** A line whose stripped, lower-cased text starts with the thought tag. */
  predicate IsThoughtLine(line: string)
  {
    StartsWith(Lower(Strip(line)), ThoughtTag)
  }

  /** The stripped text after the tag, in the line's own case. */
  function ThoughtText(line: string): string
    requires IsThoughtLine(line)
  {
    Strip(Strip(line)[|ThoughtTag|..])
  }

  /** The thought of the first thought line, or the empty text when there is none. */
  function ThoughtOf(lines: seq<string>): string
  {
    if lines == [] then ""
    else if IsThoughtLine(lines[0]) then ThoughtText(lines[0])
    else ThoughtOf(lines[1..])
  }

  function Thought(reply: string): string
  {
    ThoughtOf(Lines(reply))
  }

  /** The thought comes from the first thought line, whatever follows it. */
  lemma {:induction false} ThoughtFromFirst(lines: seq<string>, i: nat)
    requires i < |lines| && IsThoughtLine(lines[i])
    requires forall j :: 0 <= j < i ==> !IsThoughtLine(lines[j])
    ensures ThoughtOf(lines) == ThoughtText(lines[i])
  {
    if i > 0 {
      assert !IsThoughtLine(lines[0]);
      ThoughtFromFirst(lines[1..], i - 1);
    }
  }

  /** Without a thought line the thought is empty. */
  lemma {:induction false} NoThoughtLine(lines: seq<string>)
    requires forall j :: 0 <= j < |lines| ==> !IsThoughtLine(lines[j])
    ensures ThoughtOf(lines) == ""
  {
    if lines != [] {
      assert !IsThoughtLine(lines[0]);
      NoThoughtLine(lines[1..]);
    }
  }

  /** The scan over the reply's lines that stops at the first thought line. */
  method ExtractThought(reply: string) returns (thought: string)
    ensures thought == Thought(reply)
  {
    var lines := Lines(reply);
    thought := "";
    var i := 0;
    while i < |lines|
      invariant i <= |lines|
      invariant ThoughtOf(lines[i..]) == ThoughtOf(lines)
    {
      var line := Strip(lines[i]);
      if StartsWith(Lower(line), ThoughtTag) {
        thought := Strip(line[|ThoughtTag|..]);
        return;
      }
      assert lines[i..][1..] == lines[i + 1..];
      i := i + 1;
    }
  }

  // ---------------------------------------------------------------------------
  // The final answer.
  // ---------------------------------------------------------------------------

  /** A reply ends the run when it has the final marker and no action marker anywhere. */
  predicate IsFinal(reply: string)
  {
    Contains(reply, FinalMarker) && !Contains(reply, Marker)
  }

  /** The text after the last final marker, stripped, with the sign-off phrases removed, stripped again. */
  function FinalAnswer(reply: string): (r: string)
    ensures Trimmed(r)
  {
    Strip(ReplaceAll(ReplaceAll(Strip(AfterLast(reply, FinalMarker)), "You: quit", ""), "Goodbye!", ""))
  }

  lemma OccursInSlice(s: string, pat: string, a: nat, b: nat, i: nat)
    requires a <= b <= |s| && OccursAt(s[a..b], pat, i)
    ensures OccursAt(s, pat, a + i)
  {
    forall j | 0 <= j < |pat|
      ensures s[a + i + j] == pat[j]
    {
      assert s[a..b][i..i + |pat|][j] == s[a + i + j];
    }
    assert s[a + i..a + i + |pat|] == pat;
  }

  /** Stripping never brings a text into being. */
  lemma StripKeepsAbsence(s: string, pat: string)
    requires !Contains(s, pat)
    ensures !Contains(Strip(s), pat)
  {
    var a := StripSplits(s);
    if Contains(Strip(s), pat) {
      var i := Find(Strip(s), pat).value;
      assert Strip(s) == s[a..a + |Strip(s)|];
      OccursInSlice(s, pat, a, a + |Strip(s)|, i);
    }
  }

  /**
   * When the reply is final, the answer is taken from text with no final marker in it; and
   * when that text has no sign-off phrase the answer is exactly that text, stripped.
   */
  lemma AnswerAfterLastMarker(reply: string)
    requires IsFinal(reply)
    ensures var tail := AfterLast(reply, FinalMarker);
      EndsWith(reply, FinalMarker + tail) && !Contains(tail, FinalMarker) &&
      (!Contains(tail, "You: quit") && !Contains(tail, "Goodbye!") ==> FinalAnswer(reply) == Strip(tail))
  {
    var tail := AfterLast(reply, FinalMarker);
    if !Contains(tail, "You: quit") && !Contains(tail, "Goodbye!") {
      StripKeepsAbsence(tail, "You: quit");
      StripKeepsAbsence(tail, "Goodbye!");
      ReplaceAbsent(Strip(tail), "You: quit", "");
      ReplaceAbsent(Strip(tail), "Goodbye!", "");
    }
  }

  /** A reply with an action marker anywhere, even after the final marker, never ends the run. */
  lemma ActionMarkerVetoes(before: string, after: string)
    ensures !IsFinal(before + Marker + after)
  {
    var s := before + Marker + after;
    assert s[|before|..|before| + |Marker|] == Marker;
    ContainsAt(s, Marker, |before|);
  }

  // ---------------------------------------------------------------------------
  // The actions of one step.
  // ---------------------------------------------------------------------------

  /** A line that starts with the action marker once stripped. */
  predicate IsActionLine(line: string)
  {
    StartsWith(Strip(line), Marker)
  }

  /** The action lines, in reply order. */
  function ActionLines(lines: seq<string>): (r: seq<string>)
    ensures |r| <= |lines|
    ensures forall k :: 0 <= k < |r| ==> IsActionLine(r[k])
  {
    if lines == [] then []
    else if IsActionLine(lines[0]) then [lines[0]] + ActionLines(lines[1..])
    else ActionLines(lines[1..])
  }

  /** Selecting action lines distributes over joining runs of lines, and keeps a single line exactly when it is an action line. */
  lemma {:induction false} ActionLinesConcat(xs: seq<string>, ys: seq<string>)
    ensures ActionLines(xs + ys) == ActionLines(xs) + ActionLines(ys)
    ensures forall line :: ActionLines([line]) == if IsActionLine(line) then [line] else []
    decreases |xs|
  {
    if xs == [] {
      assert xs + ys == ys;
    } else {
      assert (xs + ys)[1..] == xs[1..] + ys;
      ActionLinesConcat(xs[1..], ys);
    }
    forall line
      ensures ActionLines([line]) == if IsActionLine(line) then [line] else []
    {
      assert [line][1..] == [];
    }
  }

  /** The action lines a step looks at: the first five, or all of them when there are fewer. */
  function Considered(reply: string): (r: seq<string>)
    ensures |r| <= MaxActionsPerStep
    ensures var all := ActionLines(Lines(reply));
      |r| == (if |all| < MaxActionsPerStep then |all| else MaxActionsPerStep) && r == all[..|r|]
  {
    var all := ActionLines(Lines(reply));
    if |all| <= MaxActionsPerStep then all else all[..MaxActionsPerStep]
  }

  /** The call one line leads to: none when it does not parse or names no tool. */
  function CallFor(agent: AuditAgent, line: string): (r: Option<ToolCall>)
    ensures r.Some? ==> r.value.tool != []
  {
    match ActionOf(line)
    case None => None
    case Some(c) =>
      if c.name == [] then None
      else Some(ToolCall(c.name, ExecuteTool(agent, c.name, c.args, c.kwargs)))
  }

  /** The agent's per-line call as a function value. */
  function Caller(agent: AuditAgent): string -> Option<ToolCall>
  {
    line => CallFor(agent, line)
  }

  /** The calls made for a run of lines, in line order, given what each line leads to. */
  function CallsFor(call: string -> Option<ToolCall>, lines: seq<string>): seq<ToolCall>
  {
    if lines == [] then []
    else
      var rest := CallsFor(call, lines[..|lines| - 1]);
      match call(lines[|lines| - 1])
      case None => rest
      case Some(c) => rest + [c]
  }

  /** The calls a step makes. */
  function StepCalls(agent: AuditAgent, reply: string): seq<ToolCall>
  {
    CallsFor(Caller(agent), Considered(reply))
  }

  /**
   * The agent's per-line call as a value that agrees with CallFor wherever CallFor is asked about.
   * Proofs use this value instead of the lambda `Caller(agent)`. The link to CallFor then comes
   * into play only where a proof mentions CallFor, which keeps each proof obligation small.
   */
  lemma AgentCaller(agent: AuditAgent) returns (call: string -> Option<ToolCall>)
    ensures forall line {:trigger CallFor(agent, line)} :: call(line) == CallFor(agent, line)
  {
    call := Caller(agent);
  }

  /** Per-line calls that agree line by line make the same calls. */
  lemma {:induction false} SameCalls(agent: AuditAgent, call: string -> Option<ToolCall>, lines: seq<string>)
    requires forall line {:trigger CallFor(agent, line)} :: call(line) == CallFor(agent, line)
    ensures CallsFor(call, lines) == StepCallsOf(agent, lines)
  {
    if lines != [] {
      var last := lines[|lines| - 1];
      assert call(last) == CallFor(agent, last) == Caller(agent)(last);
      SameCalls(agent, call, lines[..|lines| - 1]);
    }
  }

  /** The agent's calls for any run of lines; StepCalls is this for the lines a step considers. */
  function StepCallsOf(agent: AuditAgent, lines: seq<string>): seq<ToolCall>
  {
    CallsFor(Caller(agent), lines)
  }

  /** No more calls than lines, each naming a tool, and each the call of one of the lines. */
  lemma {:induction false} CallsFromLines(agent: AuditAgent, lines: seq<string>)
    ensures |StepCallsOf(agent, lines)| <= |lines|
    ensures forall k :: 0 <= k < |StepCallsOf(agent, lines)| ==>
      StepCallsOf(agent, lines)[k].tool != [] &&
      exists j :: 0 <= j < |lines| && CallFor(agent, lines[j]) == Some(StepCallsOf(agent, lines)[k])
  {
    if lines != [] {
      var init := lines[..|lines| - 1];
      var last := lines[|lines| - 1];
      CallsFromLines(agent, init);
      assert Caller(agent)(last) == CallFor(agent, last);
      var calls := StepCallsOf(agent, lines);
      forall k | 0 <= k < |calls|
        ensures calls[k].tool != [] && exists j :: 0 <= j < |lines| && CallFor(agent, lines[j]) == Some(calls[k])
      {
        if k < |StepCallsOf(agent, init)| {
          var j :| 0 <= j < |init| && CallFor(agent, init[j]) == Some(StepCallsOf(agent, init)[k]);
          assert lines[j] == init[j];
        } else {
          assert CallFor(agent, lines[|lines| - 1]) == Some(calls[k]);
        }
      }
    }
  }

  /** The calls keep line order: the calls of two runs of lines are the calls of each, in turn. */
  lemma {:induction false} CallsInLineOrder(call: string -> Option<ToolCall>, xs: seq<string>, ys: seq<string>)
    ensures CallsFor(call, xs + ys) == CallsFor(call, xs) + CallsFor(call, ys)
    decreases |ys|
  {
    if ys == [] {
      assert xs + ys == xs;
    } else {
      var init := ys[..|ys| - 1];
      assert (xs + ys)[..|xs + ys| - 1] == xs + init;
      assert (xs + ys)[|xs + ys| - 1] == ys[|ys| - 1];
      CallsInLineOrder(call, xs, init);
    }
  }

  /** At most five tools run in a step. */
  lemma StepCallsBounded(agent: AuditAgent, reply: string)
    ensures |StepCalls(agent, reply)| <= MaxActionsPerStep
  {
    CallsFromLines(agent, Considered(reply));
  }

  /** Lines that do not lead to a call still use up the cap: a sixth action line never runs. */
  lemma SkippedLinesUseTheCap(agent: AuditAgent, reply: string)
    requires |ActionLines(Lines(reply))| >= MaxActionsPerStep
    requires forall k :: 0 <= k < MaxActionsPerStep ==> CallFor(agent, ActionLines(Lines(reply))[k]).None?
    ensures StepCalls(agent, reply) == []
  {
    var c := Considered(reply);
    forall k | 0 <= k < |c|
      ensures Caller(agent)(c[k]).None?
    {
      assert c[k] == ActionLines(Lines(reply))[k];
    }
    NoCalls(Caller(agent), c);
  }

  /** When the first five action lines each lead to a call, exactly five tools run, in line order. */
  lemma FullStep(agent: AuditAgent, reply: string)
    requires |ActionLines(Lines(reply))| >= MaxActionsPerStep
    requires forall k :: 0 <= k < MaxActionsPerStep ==> CallFor(agent, ActionLines(Lines(reply))[k]).Some?
    ensures |StepCalls(agent, reply)| == MaxActionsPerStep
    ensures forall k :: 0 <= k < MaxActionsPerStep ==>
      Some(StepCalls(agent, reply)[k]) == CallFor(agent, ActionLines(Lines(reply))[k])
  {
    var all := ActionLines(Lines(reply));
    var c := Considered(reply);
    var call := Caller(agent);
    forall k | 0 <= k < |c|
      ensures call(c[k]).Some? && call(c[k]) == CallFor(agent, all[k])
    {
      assert c[k] == all[k];
    }
    AllCalls(call, c);
    assert StepCalls(agent, reply) == CallsFor(call, c);
  }

  /** Lines that each lead to a call give one call per line, in line order. */
  lemma {:induction false} AllCalls(call: string -> Option<ToolCall>, lines: seq<string>)
    requires forall k :: 0 <= k < |lines| ==> call(lines[k]).Some?
    ensures |CallsFor(call, lines)| == |lines|
    ensures forall k :: 0 <= k < |lines| ==> Some(CallsFor(call, lines)[k]) == call(lines[k])
  {
    if lines != [] {
      var init := lines[..|lines| - 1];
      assert forall k :: 0 <= k < |init| ==> init[k] == lines[k];
      AllCalls(call, init);
    }
  }

  lemma {:induction false} NoCalls(call: string -> Option<ToolCall>, lines: seq<string>)
    requires forall k :: 0 <= k < |lines| ==> call(lines[k]).None?
    ensures CallsFor(call, lines) == []
  {
    if lines != [] {
      assert call(lines[|lines| - 1]).None?;
      NoCalls(call, lines[..|lines| - 1]);
    }
  }

  function Observation(call: ToolCall): string
  {
    "Tool: " + call.tool + "\nResult: " + call.result
  }

  function Observations(calls: seq<ToolCall>): (r: seq<string>)
    ensures |r| == |calls|
  {
    if calls == [] then []
    else Observations(calls[..|calls| - 1]) + [Observation(calls[|calls| - 1])]
  }

  /** One action line: parse it, and run the tool when it names one. */
  method ActOnLine(agent: AuditAgent, line: string) returns (call: Option<ToolCall>)
    ensures call == CallFor(agent, line)
  {
    var action := ParseAction(line);
    if action.Some? && action.value.name != [] {
      var c := action.value;
      var observation := ExecuteTool(agent, c.name, c.args, c.kwargs);
      return Some(ToolCall(c.name, observation));
    }
    return None;
  }

  /** The loop over the action lines: at most five are parsed, and only named calls run. */
  method ExecuteActions(agent: AuditAgent, reply: string) returns (observations: seq<string>, calls: seq<ToolCall>)
    ensures calls == StepCalls(agent, reply)
    ensures observations == Observations(calls)
  {
    ghost var call := AgentCaller(agent);
    var actionLines := ActionLines(Lines(reply));
    observations := [];
    calls := [];
    var actionCount := 0;
    var i := 0;
    while i < |actionLines|
      invariant actionCount == i <= |actionLines| && i <= MaxActionsPerStep
      invariant calls == CallsFor(call, actionLines[..i])
      invariant observations == Observations(calls)
    {
      if actionCount >= MaxActionsPerStep {
        break;
      }
      actionCount := actionCount + 1;
      var made := ActOnLine(agent, actionLines[i]);
      assert call(actionLines[i]) == made;
      assert actionLines[..i + 1][..i] == actionLines[..i];
      if made.Some? {
        observations := observations + [Observation(made.value)];
        calls := calls + [made.value];
      }
      i := i + 1;
    }
    assert actionLines[..i] == Considered(reply);
    SameCalls(agent, call, actionLines[..i]);
  }

  // ---------------------------------------------------------------------------
  // One step and the whole run.
  // ---------------------------------------------------------------------------

  /** The user turn that follows a non-final reply: the observations, or a corrective prompt. */
  function FollowUp(calls: seq<ToolCall>): Message
  {
    if calls != [] then Message(User, ObservationsHeader + Join("\n\n", Observations(calls)) + NextStepRequest)
    else Message(User, CorrectivePrompt)
  }

  /** The follow-up reports observations exactly when some tool ran. */
  lemma FollowUpKind(calls: seq<ToolCall>)
    ensures FollowUp(calls).role == User
    ensures StartsWith(FollowUp(calls).content, "OBSERVATIONS:") <==> calls != []
  {
    var content := FollowUp(calls).content;
    if calls != [] {
      assert content[..13] == ObservationsHeader[..13];
    } else {
      assert content == CorrectivePrompt;
      assert CorrectivePrompt[0] == 'P';
      assert content[..13][0] == 'P';
    }
  }

  function Record(agent: AuditAgent, reply: string): StepRecord
  {
    StepRecord(Thought(reply), StepCalls(agent, reply))
  }

  /** The acting half of a non-final step: run the actions, then the history entry and the user turn. */
  method Act(agent: AuditAgent, reply: string, thought: string) returns (record: StepRecord, turn: Message)
    requires thought == Thought(reply)
    ensures record == Record(agent, reply)
    ensures turn == FollowUp(StepCalls(agent, reply))
  {
    var observations, calls := ExecuteActions(agent, reply);
    record := StepRecord(thought, calls);
    if calls != [] {
      turn := Message(User, ObservationsHeader + Join("\n\n", observations) + NextStepRequest);
    } else {
      turn := Message(User, CorrectivePrompt);
    }
  }

  function Initial(agent: AuditAgent, question: string): seq<Message>
  {
    [Message(System, agent.systemPrompt), Message(User, question)]
  }

  /** The number of steps: the range from 1 to maxSteps is empty unless maxSteps is positive. */
  function Budget(maxSteps: int): nat
  {
    if maxSteps > 0 then maxSteps else 0
  }

  /** What the loop does with one reply: end the run with an answer, or act on it and go on. */
  datatype Reaction = Finish(answer: string) | Continue(record: StepRecord, turn: Message)

  function React(agent: AuditAgent, reply: string): Reaction
  {
    if IsFinal(reply) then Finish(FinalAnswer(reply))
    else Continue(Record(agent, reply), FollowUp(StepCalls(agent, reply)))
  }

  function Reactor(agent: AuditAgent): string -> Reaction
  {
    reply => React(agent, reply)
  }

  /** What a run leaves: the answer, if any, and the transcript and step history at that point. */
  datatype RunResult = RunResult(answer: Option<string>, messages: seq<Message>, steps: seq<StepRecord>)

  /** The run from a transcript and a history with `remaining` steps left. */
  function RunFrom(react: string -> Reaction, llm: Oracle, messages: seq<Message>, steps: seq<StepRecord>, remaining: nat): RunResult
    decreases remaining
  {
    if remaining == 0 then RunResult(None, messages, steps)
    else
      var reply := llm(messages);
      match react(reply)
      case Finish(answer) => RunResult(Some(answer), messages, steps)
      case Continue(record, turn) =>
        RunFrom(react, llm, messages + [Message(Assistant, reply), turn], steps + [record], remaining - 1)
  }

  function RunOf(agent: AuditAgent, llm: Oracle, question: string, maxSteps: int): RunResult
  {
    RunFrom(Reactor(agent), llm, Initial(agent, question), [], Budget(maxSteps))
  }

  /** One iteration's work on a reply: extract the thought, then finish or act. */
  method Respond(agent: AuditAgent, reply: string) returns (reaction: Reaction)
    ensures reaction == React(agent, reply)
  {
    var thought := ExtractThought(reply);
    if IsFinal(reply) {
      return Finish(FinalAnswer(reply));
    }
    var record, turn := Act(agent, reply, thought);
    return Continue(record, turn);
  }

  /**
   * The agent's reaction as a value: it agrees with React wherever React is asked about. As with
   * AgentCaller, proofs about a run use this value instead of the lambda `Reactor(agent)`, so
   * React is unfolded only where a proof mentions it.
   */
  lemma AgentReaction(agent: AuditAgent) returns (react: string -> Reaction)
    ensures forall reply {:trigger React(agent, reply)} :: react(reply) == React(agent, reply)
  {
    react := Reactor(agent);
  }

  /** Reactions that agree on every reply make the same run. */
  lemma {:induction false} RunsAgree(react1: string -> Reaction, react2: string -> Reaction, llm: Oracle,
                                     messages: seq<Message>, steps: seq<StepRecord>, remaining: nat)
    requires forall reply :: react1(reply) == react2(reply)
    ensures RunFrom(react1, llm, messages, steps, remaining) == RunFrom(react2, llm, messages, steps, remaining)
    decreases remaining
  {
    if remaining > 0 {
      var reply := llm(messages);
      match react1(reply)
      case Finish(_) =>
      case Continue(record, turn) =>
        RunsAgree(react1, react2, llm, messages + [Message(Assistant, reply), turn], steps + [record], remaining - 1);
    }
  }

  /** A reaction that agrees with the agent's makes the agent's run. */
  lemma SameRun(agent: AuditAgent, react: string -> Reaction, llm: Oracle, question: string, maxSteps: int)
    requires forall reply {:trigger React(agent, reply)} :: react(reply) == React(agent, reply)
    ensures RunFrom(react, llm, Initial(agent, question), [], Budget(maxSteps)) == RunOf(agent, llm, question, maxSteps)
  {
    forall reply
      ensures react(reply) == Reactor(agent)(reply)
    {
      assert react(reply) == React(agent, reply);
    }
    RunsAgree(react, Reactor(agent), llm, Initial(agent, question), [], Budget(maxSteps));
  }

  /** One pass of the loop: ask the model, then either finish or extend the transcript and history. */
  method Iterate(agent: AuditAgent, llm: Oracle, messages: seq<Message>, steps: seq<StepRecord>,
                 ghost react: string -> Reaction, ghost remaining: nat)
    returns (answer: Option<string>, messages': seq<Message>, steps': seq<StepRecord>)
    requires forall reply {:trigger React(agent, reply)} :: react(reply) == React(agent, reply)
    requires remaining > 0
    ensures answer.Some? ==> RunFrom(react, llm, messages, steps, remaining) == RunResult(answer, messages', steps')
    ensures answer.None? ==>
      RunFrom(react, llm, messages, steps, remaining) == RunFrom(react, llm, messages', steps', remaining - 1)
  {
    var reply := llm(messages);
    var reaction := Respond(agent, reply);
    assert react(reply) == reaction;
    match reaction
    case Finish(final) =>
      answer, messages', steps' := Some(final), messages, steps;
    case Continue(record, turn) =>
      answer, messages', steps' := None, messages + [Message(Assistant, reply), turn], steps + [record];
  }

  /** The loop of the agent: at most `maxSteps` passes, ending early on a final reply. */
  method Run(agent: AuditAgent, llm: Oracle, question: string, maxSteps: int)
    returns (answer: Option<string>, messages: seq<Message>, steps: seq<StepRecord>)
    ensures RunResult(answer, messages, steps) == RunOf(agent, llm, question, maxSteps)
  {
    ghost var react := AgentReaction(agent);
    ghost var run := RunFrom(react, llm, Initial(agent, question), [], Budget(maxSteps));
    messages := Initial(agent, question);
    steps := [];
    var remaining := Budget(maxSteps);
    while remaining > 0
      invariant RunFrom(react, llm, messages, steps, remaining) == run
    {
      answer, messages, steps := Iterate(agent, llm, messages, steps, react, remaining);
      if answer.Some? {
        SameRun(agent, react, llm, question, maxSteps);
        return;
      }
      remaining := remaining - 1;
    }
    answer := None;
    SameRun(agent, react, llm, question, maxSteps);
  }

  // ---------------------------------------------------------------------------
  // Properties of the run.
  // ---------------------------------------------------------------------------

  /** Step k of a transcript: the reply to the turns before it was acted on, not finished. */
  predicate StepAt(react: string -> Reaction, llm: Oracle, messages: seq<Message>, steps: seq<StepRecord>, k: nat)
    requires k < |steps| && |messages| == 2 + 2 * |steps|
  {
    var reply := llm(messages[..2 + 2 * k]);
    messages[2 + 2 * k] == Message(Assistant, reply) &&
    react(reply) == Continue(steps[k], messages[3 + 2 * k])
  }

  /** Two opening turns, then two turns per recorded step, each step as the loop makes it. */
  predicate Transcript(react: string -> Reaction, llm: Oracle, messages: seq<Message>, steps: seq<StepRecord>)
  {
    |messages| == 2 + 2 * |steps| &&
    forall k: nat :: k < |steps| ==> StepAt(react, llm, messages, steps, k)
  }

  /** Appending one acted-on reply keeps the transcript's shape. */
  lemma TranscriptStep(react: string -> Reaction, llm: Oracle, messages: seq<Message>, steps: seq<StepRecord>)
    requires Transcript(react, llm, messages, steps)
    requires react(llm(messages)).Continue?
    ensures var reply := llm(messages);
      Transcript(react, llm, messages + [Message(Assistant, reply), react(reply).turn], steps + [react(reply).record])
  {
    var reply := llm(messages);
    var m := messages + [Message(Assistant, reply), react(reply).turn];
    var s := steps + [react(reply).record];
    forall k: nat | k < |s|
      ensures StepAt(react, llm, m, s, k)
    {
      assert m[..2 + 2 * k] == messages[..2 + 2 * k];
      if k < |steps| {
        assert StepAt(react, llm, messages, steps, k);
      }
    }
  }

  /** From any well-formed transcript, the run only appends acted-on steps to it. */
  lemma {:induction false} RunFromTranscript(react: string -> Reaction, llm: Oracle, messages: seq<Message>, steps: seq<StepRecord>, remaining: nat)
    requires Transcript(react, llm, messages, steps)
    ensures var r := RunFrom(react, llm, messages, steps, remaining);
      Transcript(react, llm, r.messages, r.steps) && messages <= r.messages && steps <= r.steps
    decreases remaining
  {
    var reply := llm(messages);
    if remaining > 0 && react(reply).Continue? {
      TranscriptStep(react, llm, messages, steps);
      RunFromTranscript(react, llm, messages + [Message(Assistant, reply), react(reply).turn],
                        steps + [react(reply).record], remaining - 1);
    }
  }

  /**
   * The run either answers from a reply to the transcript it returns that finished the run,
   * before its steps run out, or records one step per remaining iteration.
   */
  lemma {:induction false} RunFromEnds(react: string -> Reaction, llm: Oracle, messages: seq<Message>, steps: seq<StepRecord>, remaining: nat)
    ensures var r := RunFrom(react, llm, messages, steps, remaining);
      (r.answer.Some? ==> |r.steps| < |steps| + remaining && react(llm(r.messages)) == Finish(r.answer.value)) &&
      (r.answer.None? ==> |r.steps| == |steps| + remaining)
    decreases remaining
  {
    var reply := llm(messages);
    if remaining > 0 && react(reply).Continue? {
      RunFromEnds(react, llm, messages + [Message(Assistant, reply), react(reply).turn],
                  steps + [react(reply).record], remaining - 1);
    }
  }

  /** A reply the agent acted on was not final, and its record and follow-up are the step's. */
  lemma ActedOn(agent: AuditAgent, react: string -> Reaction, reply: string, record: StepRecord, turn: Message)
    requires forall reply {:trigger React(agent, reply)} :: react(reply) == React(agent, reply)
    requires react(reply) == Continue(record, turn)
    ensures !IsFinal(reply) && record == Record(agent, reply) && turn == FollowUp(StepCalls(agent, reply))
  {
    assert React(agent, reply) == Continue(record, turn);
  }

  /** A reply that finished the run was final, and the answer is its final answer. */
  lemma FinishedOn(agent: AuditAgent, react: string -> Reaction, reply: string, answer: string)
    requires forall reply {:trigger React(agent, reply)} :: react(reply) == React(agent, reply)
    requires react(reply) == Finish(answer)
    ensures IsFinal(reply) && answer == FinalAnswer(reply)
  {
    assert React(agent, reply) == Finish(answer);
  }

  /** The opening turns and the two turns per recorded step. */
  lemma RunTranscriptShape(agent: AuditAgent, llm: Oracle, question: string, maxSteps: int)
    ensures var r := RunOf(agent, llm, question, maxSteps);
      |r.messages| == 2 + 2 * |r.steps| && r.messages[..2] == Initial(agent, question)
  {
    var react := AgentReaction(agent);
    var init := Initial(agent, question);
    SameRun(agent, react, llm, question, maxSteps);
    assert Transcript(react, llm, init, []);
    RunFromTranscript(react, llm, init, [], Budget(maxSteps));
  }

  /** Recorded step k: the reply to the turns before it was not final, and the step and its follow-up are what the agent made of it. */
  lemma RunStep(agent: AuditAgent, llm: Oracle, question: string, maxSteps: int, k: nat)
    requires k < |RunOf(agent, llm, question, maxSteps).steps|
    ensures var r := RunOf(agent, llm, question, maxSteps);
      |r.messages| == 2 + 2 * |r.steps| &&
      var reply := llm(r.messages[..2 + 2 * k]);
      !IsFinal(reply) && r.messages[2 + 2 * k] == Message(Assistant, reply) &&
      r.steps[k] == Record(agent, reply) && r.messages[3 + 2 * k] == FollowUp(StepCalls(agent, reply))
  {
    var react := AgentReaction(agent);
    var init := Initial(agent, question);
    SameRun(agent, react, llm, question, maxSteps);
    assert Transcript(react, llm, init, []);
    RunFromTranscript(react, llm, init, [], Budget(maxSteps));
    var r := RunOf(agent, llm, question, maxSteps);
    assert StepAt(react, llm, r.messages, r.steps, k);
    ActedOn(agent, react, llm(r.messages[..2 + 2 * k]), r.steps[k], r.messages[3 + 2 * k]);
  }

  /**
   * How a run ends: an answer comes from a final reply to the returned transcript, which is
   * not recorded, before the budget is spent; no answer means `maxSteps` recorded steps.
   */
  lemma RunEnds(agent: AuditAgent, llm: Oracle, question: string, maxSteps: int)
    ensures var r := RunOf(agent, llm, question, maxSteps);
      (r.answer.Some? ==> |r.steps| < Budget(maxSteps) && IsFinal(llm(r.messages)) &&
                          r.answer.value == FinalAnswer(llm(r.messages))) &&
      (r.answer.None? ==> |r.steps| == Budget(maxSteps))
  {
    var react := AgentReaction(agent);
    SameRun(agent, react, llm, question, maxSteps);
    RunFromEnds(react, llm, Initial(agent, question), [], Budget(maxSteps));
    var r := RunOf(agent, llm, question, maxSteps);
    if r.answer.Some? {
      FinishedOn(agent, react, llm(r.messages), r.answer.value);
    }
  }

  /** With the default budget, a model that never concludes leaves twenty steps and forty-two turns. */
  lemma NeverFinal(agent: AuditAgent, llm: Oracle, question: string)
    requires forall ms :: !IsFinal(llm(ms))
    ensures var r := RunOf(agent, llm, question, DefaultMaxSteps);
      r.answer == None && |r.steps| == 20 && |r.messages| == 42
  {
    RunTranscriptShape(agent, llm, question, DefaultMaxSteps);
    RunEnds(agent, llm, question, DefaultMaxSteps);
    var r := RunOf(agent, llm, question, DefaultMaxSteps);
    assert !IsFinal(llm(r.messages));
  }
}

=== FILE: postgres_tools.dfy ===
/**
 * The pure parts of the `query_postgres` tool and of `user_exists`: the SELECT-and-keyword
 * guard, the text rendering of a result table, and the string test that decides whether a user
 * exists.
 * The database itself is a parameter: a function from query text to what the driver answers.
 */
module PostgresTools {
  import opened Text

  /** One cell as the driver returns it: SQL NULL, or a value already rendered by `str`. */
  datatype Cell = Null | Shown(text: string)

  /** What the database answers: column names and rows, or the text of the raised exception. */
  datatype DbAnswer = Table(columns: seq<string>, rows: seq<seq<Cell>>) | Failure(message: string)

  const ErrorTag: string := "Error: "
  const OnlySelectError: string := ErrorTag + "Only SELECT queries are allowed."
  const WriteError: string := ErrorTag + "Write operations or schema changes are not permitted."
  const NoRowsText: string := "Query returned no rows."
  const DbErrorPrefix: string := "Database error: "

  /** At most this many rows are rendered. */
  const RowLimit: nat := 20

  /** Substrings that make the guard refuse a query. */
  const Keywords: seq<string> := ["INSERT", "UPDATE", "DELETE", "DROP", "ALTER", "CREATE", "TRUNCATE", "GRANT"]

  // ---------------------------------------------------------------------------
  // The guard: a SELECT prefix and no write keyword.
  // ---------------------------------------------------------------------------

  predicate MentionsKeyword(u: string)
  {
    exists k :: 0 <= k < |Keywords| && Contains(u, Keywords[k])
  }

  /** The refusal text, or None when the query may go to the database. */
  function Guard(query: string): (r: Option<string>)
    ensures r.Some? ==> r.value == OnlySelectError || r.value == WriteError
  {
    var u := Upper(Strip(query));
    if !StartsWith(u, "SELECT") then Some(OnlySelectError)
    else if MentionsKeyword(u) then Some(WriteError)
    else None
  }

  /** The guard ignores letter case: upper-casing the query first changes nothing. */
  lemma GuardIgnoresCase(query: string)
    ensures Guard(Upper(query)) == Guard(query)
  {
    StripUpper(query);
    UpperIdempotent(Strip(query));
  }

  /** The guard ignores surrounding whitespace. */
  lemma GuardIgnoresPadding(query: string)
    ensures Guard(Strip(query)) == Guard(query)
  {
    var s := Strip(query);
    assert Strip(s) == s;
  }

  /** A keyword anywhere in a SELECT, inside a name or a string literal as much as on its own, refuses it. */
  lemma KeywordAnywhereRefused(query: string, k: nat, i: nat)
    requires StartsWith(Upper(Strip(query)), "SELECT")
    requires k < |Keywords| && OccursAt(Upper(Strip(query)), Keywords[k], i)
    ensures Guard(query) == Some(WriteError)
  {
    ContainsAt(Upper(Strip(query)), Keywords[k], i);
  }

  /**
   * The guard is a text test, not a read-only check. Every write keyword holds an R, a U or a D,
   * so a SELECT whose upper-cased text has none of those letters always gets through, whatever
   * it calls: `SELECT NEXTVAL('S')` advances a sequence and still reaches the database.
   */
  lemma SelectWithoutRUDPasses(query: string)
    requires StartsWith(Upper(Strip(query)), "SELECT")
    requires 'R' !in Upper(Strip(query)) && 'U' !in Upper(Strip(query)) && 'D' !in Upper(Strip(query))
    ensures Guard(query).None?
  {
    NoWriteKeyword(Upper(Strip(query)));
  }

  lemma NoWriteKeyword(u: string)
    requires 'R' !in u && 'U' !in u && 'D' !in u
    ensures !MentionsKeyword(u)
  {
    AbsentChar(u, "INSERT", 4);
    AbsentChar(u, "UPDATE", 0);
    AbsentChar(u, "DELETE", 0);
    AbsentChar(u, "DROP", 1);
    AbsentChar(u, "ALTER", 4);
    AbsentChar(u, "CREATE", 1);
    AbsentChar(u, "TRUNCATE", 1);
    AbsentChar(u, "GRANT", 1);
  }

  // ---------------------------------------------------------------------------
  // Rendering a result table.
  // ---------------------------------------------------------------------------

  /** Python's `c * n` for one character. */
  function Repeat(c: char, n: nat): (r: string)
    ensures |r| == n
    ensures forall i :: 0 <= i < n ==> r[i] == c
  {
    if n == 0 then [] else Repeat(c, n - 1) + [c]
  }

  function CellText(cell: Cell): string
  {
    match cell
    case Null => "NULL"
    case Shown(t) => t
  }

  function CellTexts(row: seq<Cell>): (r: seq<string>)
    ensures |r| == |row|
  {
    seq(|row|, i requires 0 <= i < |row| => CellText(row[i]))
  }

  /** One row: its cells separated by " | ", NULL for a missing value. */
  function RowLine(row: seq<Cell>): string
  {
    Join(" | ", CellTexts(row))
  }

  function Min(a: nat, b: nat): nat
  {
    if a <= b then a else b
  }

  /** The line that reports the rows left out. */
  function MoreRowsLine(extra: nat): string
  {
    "... and " + Decimal(extra) + " more rows."
  }

  /** The rendered lines: header, a dash rule as long as the header, the first rows, and a tail when rows were cut. */
  function ResultLines(columns: seq<string>, rows: seq<seq<Cell>>): seq<string>
  {
    var header := Join(" | ", columns);
    var shown := Min(|rows|, RowLimit);
    [header, Repeat('-', |header|)]
    + seq(shown, i requires 0 <= i < shown => RowLine(rows[i]))
    + (if |rows| > RowLimit then [MoreRowsLine(|rows| - RowLimit)] else [])
  }

  /** The shape of the rendering, line by line. */
  lemma ResultLinesShape(columns: seq<string>, rows: seq<seq<Cell>>)
    ensures var lines := ResultLines(columns, rows);
      |lines| == 2 + Min(|rows|, RowLimit) + (if |rows| > RowLimit then 1 else 0)
      && lines[0] == Join(" | ", columns)
      && |lines[1]| == |lines[0]| && (forall j :: 0 <= j < |lines[1]| ==> lines[1][j] == '-')
      && (forall i :: 0 <= i < Min(|rows|, RowLimit) ==> lines[2 + i] == RowLine(rows[i]))
  {
  }

  /** When rows were cut, the last line names how many, and the number reads back as the count left out. */
  lemma MoreRowsCounted(columns: seq<string>, rows: seq<seq<Cell>>)
    requires |rows| > RowLimit
    ensures var lines := ResultLines(columns, rows);
      |lines| == 2 + RowLimit + 1
      && lines[|lines| - 1] == MoreRowsLine(|rows| - RowLimit)
      && DigitsValue(Decimal(|rows| - RowLimit)) == |rows| - RowLimit
  {
    DecimalRoundTrip(|rows| - RowLimit);
  }

  /** The header, the dash rule and up to twenty rows, appended one line at a time, then joined. */
  method FormatRows(columns: seq<string>, rows: seq<seq<Cell>>) returns (text: string)
    ensures text == Join("\n", ResultLines(columns, rows))
  {
    var header := Join(" | ", columns);
    var lines := [header, Repeat('-', |header|)];
    var shown := Min(|rows|, RowLimit);
    for i := 0 to shown
      invariant lines == [header, Repeat('-', |header|)] + seq(i, j requires 0 <= j < i => RowLine(rows[j]))
    {
      lines := lines + [RowLine(rows[i])];
    }
    if |rows| > RowLimit {
      lines := lines + [MoreRowsLine(|rows| - RowLimit)];
    }
    assert lines == ResultLines(columns, rows);
    text := Join("\n", lines);
  }

  // ---------------------------------------------------------------------------
  // The tool as a whole.
  // ---------------------------------------------------------------------------

  /** What `query_postgres` returns for `query` against the database `db`. */
  function QueryOutcome(query: string, db: string -> DbAnswer): string
  {
    match Guard(query)
    case Some(refusal) => refusal
    case None =>
      match db(query)
      case Failure(m) => DbErrorPrefix + m
      case Table(columns, rows) => if rows == [] then NoRowsText else Join("\n", ResultLines(columns, rows))
  }

  /** A refused query never reaches the database: the outcome is the same whatever the database holds. */
  lemma GuardBeforeDatabase(query: string, db1: string -> DbAnswer, db2: string -> DbAnswer)
    requires Guard(query).Some?
    ensures QueryOutcome(query, db1) == QueryOutcome(query, db2) == Guard(query).value
  {
  }

  /** The guard, then one database call, then the rendering. */
  method QueryPostgres(query: string, db: string -> DbAnswer) returns (result: string)
    ensures result == QueryOutcome(query, db)
  {
    var refusal := Guard(query);
    if refusal.Some? {
      return refusal.value;
    }
    var answer := db(query);
    match answer {
      case Failure(m) =>
        result := DbErrorPrefix + m;
      case Table(columns, rows) =>
        if rows == [] {
          result := NoRowsText;
        } else {
          result := FormatRows(columns, rows);
        }
    }
  }

  // ---------------------------------------------------------------------------
  // user_exists.
  // ---------------------------------------------------------------------------

  /** The lookup query, with the user id pasted between quotes. */
  function UserQuery(userId: string): string
  {
    "SELECT 1 FROM audit_events WHERE user_id = '" + userId + "' LIMIT 1"
  }

  /** The test as written: a "1", and neither "No rows" nor "Error", anywhere in the tool's text. */
  predicate ConfirmsAsWritten(result: string)
  {
    Contains(result, "1") && !Contains(result, "No rows") && !Contains(result, "Error")
  }

  /** The test as intended: as written, and the text is not a database error report. */
  predicate Confirms(result: string)
  {
    ConfirmsAsWritten(result) && !StartsWith(result, DbErrorPrefix)
  }

  /** A database failure whose message has a '1' and no capital 'E' or 'N' passes the test as written. */
  lemma FailureConfirmsAsWritten(userId: string, db: string -> DbAnswer, m: string)
    requires Guard(UserQuery(userId)).None?
    requires db(UserQuery(userId)) == Failure(m)
    requires '1' in m && 'E' !in m && 'N' !in m
    ensures ConfirmsAsWritten(QueryOutcome(UserQuery(userId), db))
    ensures !Confirms(QueryOutcome(UserQuery(userId), db))
  {
    var r := DbErrorPrefix + m;
    assert r[|DbErrorPrefix|..] == m;
    assert '1' in r by {
      var i :| 0 <= i < |m| && m[i] == '1';
      assert r[|DbErrorPrefix| + i] == '1';
    }
    ContainsChar(r, '1');
    assert 'E' !in r && 'N' !in r by {
      assert 'E' !in DbErrorPrefix && 'N' !in DbErrorPrefix;
    }
    AbsentFirstChar(r, "Error");
    AbsentFirstChar(r, "No rows");
    assert r[..|DbErrorPrefix|] == DbErrorPrefix;
  }

  /** Both refusals of the guard say "Error". */
  lemma RefusalSaysError(r: string)
    requires r == OnlySelectError || r == WriteError
    ensures Contains(r, "Error")
  {
    assert r[0..5] == ErrorTag[0..5] == "Error";
    ContainsAt(r, "Error", 0);
  }

  lemma NoRowsNotConfirmed()
    ensures !ConfirmsAsWritten(NoRowsText)
  {
    assert '1' !in NoRowsText;
    ContainsChar(NoRowsText, '1');
  }

  /** The corrected test confirms a user only when the database returned at least one row. */
  lemma ConfirmedMeansRows(userId: string, db: string -> DbAnswer)
    requires Confirms(QueryOutcome(UserQuery(userId), db))
    ensures Guard(UserQuery(userId)).None?
    ensures db(UserQuery(userId)).Table? && db(UserQuery(userId)).rows != []
  {
    var q := UserQuery(userId);
    var r := QueryOutcome(q, db);
    if Guard(q).Some? {
      RefusalSaysError(Guard(q).value);
    } else if db(q).Table? && db(q).rows == [] {
      NoRowsNotConfirmed();
    }
  }

  /** A user id that contains a keyword in any letter case is never confirmed: the guard refuses the lookup. */
  lemma KeywordInUserId(userId: string, db: string -> DbAnswer)
    requires Guard(UserQuery(userId)) == Some(WriteError)
    ensures !Confirms(QueryOutcome(UserQuery(userId), db))
    ensures !ConfirmsAsWritten(QueryOutcome(UserQuery(userId), db))
  {
    RefusalSaysError(WriteError);
  }

  /** The one-row table of `SELECT 1`, rendered. */
  lemma OneRowRendered()
    ensures Join("\n", ResultLines(["?column?"], [[Shown("1")]])) == "?column?\n--------\n1"
  {
    var lines := ResultLines(["?column?"], [[Shown("1")]]);
    assert Join(" | ", ["?column?"]) == "?column?";
    assert RowLine([Shown("1")]) == "1" by {
      assert CellTexts([Shown("1")]) == ["1"];
    }
    assert Repeat('-', 8) == "--------";
    assert lines == ["?column?", "--------", "1"];
  }

  /** When the lookup returns the single row of `SELECT 1`, the user is confirmed. */
  lemma OneRowConfirmed(userId: string, db: string -> DbAnswer)
    requires Guard(UserQuery(userId)).None?
    requires db(UserQuery(userId)) == Table(["?column?"], [[Shown("1")]])
    ensures Confirms(QueryOutcome(UserQuery(userId), db))
  {
    OneRowRendered();
    OneRowTextConfirms();
  }

  lemma OneRowTextConfirms()
    ensures Confirms("?column?\n--------\n1")
  {
    var r := "?column?\n--------\n1";
    assert Contains(r, "1") by {
      assert r[|r| - 1] == '1';
      ContainsChar(r, '1');
    }
    OneRowTextLetters();
    AbsentFirstChar(r, "Error");
    AbsentFirstChar(r, "No rows");
    assert !StartsWith(r, DbErrorPrefix) by {
      assert r[0] != DbErrorPrefix[0];
    }
  }

  lemma OneRowTextLetters()
    ensures 'E' !in "?column?\n--------\n1" && 'N' !in "?column?\n--------\n1"
  {
    var a, b, c := "?column?", "--------", "1";
    assert "?column?\n--------\n1" == a + "\n" + b + "\n" + c;
    assert 'E' !in a && 'E' !in b && 'E' !in c && 'E' !in "\n";
    assert 'N' !in a && 'N' !in b && 'N' !in c && 'N' !in "\n";
  }

  /** `user_exists` as written: the lookup query through the tool, then the substring test of line 116. */
  method UserExists(userId: string, db: string -> DbAnswer) returns (found: bool)
    ensures found == ConfirmsAsWritten(QueryOutcome(UserQuery(userId), db))
  {
    var result := QueryPostgres(UserQuery(userId), db);
    found := ConfirmsAsWritten(result);
  }

  /**
   * `user_exists` with the corrected test: a user is confirmed only when the lookup returned a
   * row, and the single row of `SELECT 1` confirms it.
   */
  method UserExistsCorrected(userId: string, db: string -> DbAnswer) returns (found: bool)
    ensures found == Confirms(QueryOutcome(UserQuery(userId), db))
    ensures found ==> db(UserQuery(userId)).Table? && db(UserQuery(userId)).rows != []
    ensures Guard(UserQuery(userId)).None? && db(UserQuery(userId)) == Table(["?column?"], [[Shown("1")]]) ==> found
  {
    var result := QueryPostgres(UserQuery(userId), db);
    found := Confirms(result);
    if found {
      ConfirmedMeansRows(userId, db);
    }
    if Guard(UserQuery(userId)).None? && db(UserQuery(userId)) == Table(["?column?"], [[Shown("1")]]) {
      OneRowConfirmed(userId, db);
    }
  }
}

=== FILE: text.dfy ===
/**
 * Python `str` operations used by the audit agent, on ASCII text:
 * strip, startswith, lower/upper, `in`, split, join, replace and isdigit.
 */
module Text {

  datatype Option<+T> = None | Some(value: T)

  /** Python's `str.isspace` restricted to ASCII: space, \t \n \v \f \r and the separators 0x1C-0x1F. */
  predicate IsSpace(c: char)
  {
    var n := c as int;
    n == 32 || 9 <= n <= 13 || 28 <= n <= 31
  }

  predicate AllSpace(s: string)
  {
    forall i :: 0 <= i < |s| ==> IsSpace(s[i])
  }

  /** No whitespace at either end. */
  predicate Trimmed(s: string)
  {
    s == [] || (!IsSpace(s[0]) && !IsSpace(s[|s| - 1]))
  }

  /** Drops the leading whitespace. */
  function LStrip(s: string): (r: string)
    ensures |r| <= |s|
    ensures r == [] || !IsSpace(r[0])
    decreases |s|
  {
    if s != [] && IsSpace(s[0]) then LStrip(s[1..]) else s
  }

  /** Drops the trailing whitespace. */
  function RStrip(s: string): (r: string)
    ensures |r| <= |s|
    ensures r == [] || !IsSpace(r[|r| - 1])
    ensures r != [] ==> r[0] == s[0]
    decreases |s|
  {
    if s != [] && IsSpace(s[|s| - 1]) then RStrip(s[..|s| - 1]) else s
  }

  /** Python's `str.strip()`. */
  function Strip(s: string): (r: string)
    ensures Trimmed(r) && |r| <= |s|
    ensures Trimmed(s) ==> r == s
  {
    RStrip(LStrip(s))
  }

  /** `LStrip` keeps the suffix after the maximal whitespace prefix. */
  lemma {:induction false} LStripSplits(s: string)
    ensures LStrip(s) == s[|s| - |LStrip(s)|..]
    ensures AllSpace(s[..|s| - |LStrip(s)|])
    decreases |s|
  {
    if s != [] && IsSpace(s[0]) {
      LStripSplits(s[1..]);
      var k := |s| - |LStrip(s)|;
      assert s[..k] == [s[0]] + s[1..][..k - 1];
    }
  }

  /** `RStrip` keeps the prefix before the maximal whitespace suffix. */
  lemma {:induction false} RStripSplits(s: string)
    ensures RStrip(s) == s[..|RStrip(s)|]
    ensures AllSpace(s[|RStrip(s)|..])
    decreases |s|
  {
    if s != [] && IsSpace(s[|s| - 1]) {
      var init := s[..|s| - 1];
      RStripSplits(init);
      var k := |RStrip(s)|;
      assert s[k..] == init[k..] + [s[|s| - 1]];
      assert RStrip(s) == init[..k];
    }
  }

  lemma {:induction false} LStripAllSpace(s: string)
    requires AllSpace(s)
    ensures LStrip(s) == []
    decreases |s|
  {
    if s != [] {
      LStripAllSpace(s[1..]);
    }
  }

  /** Text made only of whitespace strips to nothing. */
  lemma StripAllSpace(s: string)
    requires AllSpace(s)
    ensures Strip(s) == []
  {
    LStripAllSpace(s);
  }

  /** Stripping only ever removes whitespace: `s` is whitespace, then `Strip(s)`, then whitespace. */
  lemma StripSplits(s: string) returns (a: nat)
    ensures a + |Strip(s)| <= |s|
    ensures s == s[..a] + Strip(s) + s[a + |Strip(s)|..]
    ensures AllSpace(s[..a]) && AllSpace(s[a + |Strip(s)|..])
  {
    var l := LStrip(s);
    var r := RStrip(l);
    LStripSplits(s);
    RStripSplits(l);
    a := |s| - |l|;
    var tail := l[|r|..];
    assert r == Strip(s);
    assert l == r + tail by {
      assert r == l[..|r|];
    }
    assert s[a..] == l;
    assert s == s[..a] + r + tail by {
      assert s == s[..a] + s[a..];
    }
    assert s[a + |r|..] == tail by {
      assert s[a + |r|..] == s[a..][|r|..];
    }
  }

  lemma {:induction false} LStripSpacePrefix(w: string, x: string)
    requires AllSpace(w)
    ensures LStrip(w + x) == LStrip(x)
    decreases |w|
  {
    if w != [] {
      assert (w + x)[1..] == w[1..] + x;
      LStripSpacePrefix(w[1..], x);
    } else {
      assert w + x == x;
    }
  }

  lemma {:induction false} RStripSpaceSuffix(x: string, w: string)
    requires AllSpace(w)
    ensures RStrip(x + w) == RStrip(x)
    decreases |w|
  {
    if w != [] {
      var init := w[..|w| - 1];
      assert (x + w)[..|x + w| - 1] == x + init;
      RStripSpaceSuffix(x, init);
    } else {
      assert x + w == x;
    }
  }

  /** Whatever whitespace surrounds a trimmed text, stripping gives back exactly that text. */
  lemma StripOfPadded(w1: string, t: string, w2: string)
    requires AllSpace(w1) && Trimmed(t) && AllSpace(w2)
    ensures Strip(w1 + t + w2) == t
  {
    assert w1 + t + w2 == w1 + (t + w2);
    LStripSpacePrefix(w1, t + w2);
    if t == [] {
      assert t + w2 == w2;
      LStripAllSpace(w2);
    } else {
      assert LStrip(t + w2) == t + w2;
      RStripSpaceSuffix(t, w2);
    }
  }

  /** Stripping the trailing whitespace first makes no difference to `strip`. */
  lemma StripRStrip(s: string)
    ensures Strip(RStrip(s)) == Strip(s)
  {
    var r := RStrip(s);
    RStripSplits(s);
    var a := StripSplits(r);
    var w1 := r[..a];
    var w2 := r[a + |Strip(r)|..];
    var ws := s[|r|..];
    assert s == r + ws;
    assert s == w1 + Strip(r) + (w2 + ws);
    assert AllSpace(w2 + ws);
    StripOfPadded(w1, Strip(r), w2 + ws);
  }

  predicate StartsWith(s: string, p: string)
  {
    |p| <= |s| && s[..|p|] == p
  }

  predicate EndsWith(s: string, p: string)
  {
    |p| <= |s| && s[|s| - |p|..] == p
  }

  function LowerChar(c: char): char
  {
    if 'A' <= c <= 'Z' then (c as int + 32) as char else c
  }

  function UpperChar(c: char): char
  {
    if 'a' <= c <= 'z' then (c as int - 32) as char else c
  }

  /** Python's `str.lower()` on ASCII letters: same length, letters mapped one by one. */
  function Lower(s: string): (r: string)
    ensures |r| == |s|
    ensures s != [] ==> r[0] == LowerChar(s[0])
  {
    if s == [] then [] else [LowerChar(s[0])] + Lower(s[1..])
  }

  /** Python's `str.upper()` on ASCII letters: same length, letters mapped one by one. */
  function Upper(s: string): (r: string)
    ensures |r| == |s|
    ensures s != [] ==> r[0] == UpperChar(s[0])
  {
    if s == [] then [] else [UpperChar(s[0])] + Upper(s[1..])
  }

  /** Upper-casing maps the characters one by one. */
  lemma {:induction false} UpperChars(s: string)
    ensures forall i :: 0 <= i < |s| ==> Upper(s)[i] == UpperChar(s[i])
    decreases |s|
  {
    if s != [] {
      UpperChars(s[1..]);
      assert Upper(s) == [UpperChar(s[0])] + Upper(s[1..]);
    }
  }

  lemma UpperPrefix(s: string, k: nat)
    requires k <= |s|
    ensures Upper(s[..k]) == Upper(s)[..k]
  {
    UpperChars(s);
    UpperChars(s[..k]);
    assert forall i :: 0 <= i < k ==> Upper(s[..k])[i] == Upper(s)[..k][i];
  }

  lemma UpperCharSpace(c: char)
    ensures IsSpace(UpperChar(c)) <==> IsSpace(c)
  {
  }

  lemma {:induction false} LStripUpper(s: string)
    ensures LStrip(Upper(s)) == Upper(LStrip(s))
    decreases |s|
  {
    if s != [] {
      UpperCharSpace(s[0]);
      assert Upper(s)[1..] == Upper(s[1..]);
      LStripUpper(s[1..]);
    }
  }

  lemma {:induction false} RStripUpper(s: string)
    ensures RStrip(Upper(s)) == Upper(RStrip(s))
    decreases |s|
  {
    if s != [] {
      var n := |s| - 1;
      UpperChars(s);
      UpperCharSpace(s[n]);
      UpperPrefix(s, n);
      RStripUpper(s[..n]);
    }
  }

  /** Upper-casing and stripping commute: case never turns a character into whitespace or back. */
  lemma StripUpper(s: string)
    ensures Strip(Upper(s)) == Upper(Strip(s))
  {
    LStripUpper(s);
    RStripUpper(LStrip(s));
  }

  lemma UpperIdempotent(s: string)
    ensures Upper(Upper(s)) == Upper(s)
  {
    UpperChars(s);
    UpperChars(Upper(s));
  }

  predicate OccursAt(s: string, pat: string, i: nat)
  {
    i + |pat| <= |s| && s[i..i + |pat|] == pat
  }

  /** The first position at or after `k` where `pat` occurs, if any. */
  function FindFrom(s: string, pat: string, k: nat): (r: Option<nat>)
    ensures r.Some? ==> k <= r.value && OccursAt(s, pat, r.value)
    ensures forall i: nat :: k <= i && (r.None? || i < r.value) ==> !OccursAt(s, pat, i)
    decreases |s| - k
  {
    if k + |pat| > |s| then None
    else if OccursAt(s, pat, k) then Some(k)
    else FindFrom(s, pat, k + 1)
  }

  /** Python's `str.find`: the first position where `pat` occurs, if any. */
  function Find(s: string, pat: string): (r: Option<nat>)
    ensures r.Some? ==> OccursAt(s, pat, r.value)
    ensures forall i: nat :: (r.None? || i < r.value) ==> !OccursAt(s, pat, i)
  {
    FindFrom(s, pat, 0)
  }

  /** Python's `s.find(c)` for one character: the first index of `c`, or -1. */
  function FindChar(s: string, c: char): (r: int)
    ensures -1 <= r < |s|
    ensures r == -1 <==> c !in s
    ensures r >= 0 ==> s[r] == c && c !in s[..r]
  {
    if s == [] then -1
    else if s[0] == c then 0
    else
      var j := FindChar(s[1..], c);
      assert s == [s[0]] + s[1..];
      if j == -1 then -1
      else
        assert s[..j + 1] == [s[0]] + s[1..][..j];
        j + 1
  }

  /** Python's `pat in s`. */
  predicate Contains(s: string, pat: string)
  {
    Find(s, pat).Some?
  }

  lemma ContainsAt(s: string, pat: string, i: nat)
    requires OccursAt(s, pat, i)
    ensures Contains(s, pat)
  {
  }

  /** For one character, `[c] in s` is `c in s`. */
  lemma ContainsChar(s: string, c: char)
    ensures Contains(s, [c]) <==> c in s
  {
    if c in s {
      var i :| 0 <= i < |s| && s[i] == c;
      assert s[i..i + 1] == [c];
      ContainsAt(s, [c], i);
    }
    if Contains(s, [c]) {
      var i := Find(s, [c]).value;
      assert s[i..i + 1] == [c];
      assert s[i] == c;
    }
  }

  /** A pattern whose first character never occurs is not contained. */
  lemma AbsentFirstChar(s: string, pat: string)
    requires pat != [] && pat[0] !in s
    ensures !Contains(s, pat)
  {
    forall i: nat
      ensures !OccursAt(s, pat, i)
    {
      if i + |pat| <= |s| {
        assert s[i..i + |pat|][0] == s[i];
      }
    }
  }

  /** A pattern with any one character that never occurs in the text is not contained. */
  lemma AbsentChar(s: string, pat: string, j: nat)
    requires j < |pat| && pat[j] !in s
    ensures !Contains(s, pat)
  {
    forall i: nat
      ensures !OccursAt(s, pat, i)
    {
      if i + |pat| <= |s| {
        assert s[i..i + |pat|][j] == s[i + j];
      }
    }
  }

  /** Python's `sep.join(parts)`. */
  function Join(sep: string, parts: seq<string>): string
  {
    if |parts| == 0 then ""
    else if |parts| == 1 then parts[0]
    else parts[0] + sep + Join(sep, parts[1..])
  }

  /** Python's `s.split(sep)` for a non-empty separator: cut at each occurrence, scanning left to right. */
  function SplitBy(s: string, sep: string): (r: seq<string>)
    requires |sep| > 0
    ensures |r| >= 1
    ensures Join(sep, r) == s
    ensures forall k :: 0 <= k < |r| ==> !Contains(r[k], sep)
    decreases |s|
  {
    match Find(s, sep)
    case None => [s]
    case Some(i) =>
      var rest := SplitBy(s[i + |sep|..], sep);
      assert s == s[..i] + sep + s[i + |sep|..];
      PrefixBeforeFirst(s, sep, i);
      [s[..i]] + rest
  }

  lemma PrefixBeforeFirst(s: string, sep: string, i: nat)
    requires i <= |s| && |sep| > 0
    requires forall j: nat :: j < i ==> !OccursAt(s, sep, j)
    ensures !Contains(s[..i], sep)
  {
    var p := s[..i];
    if Contains(p, sep) {
      var j := Find(p, sep).value;
      assert p[j..j + |sep|] == s[j..j + |sep|];
      assert OccursAt(s, sep, j);
    }
  }

  /** Python's `s.replace(pat, rep)`: every non-overlapping occurrence, left to right. */
  function ReplaceAll(s: string, pat: string, rep: string): string
    requires |pat| > 0
  {
    Join(rep, SplitBy(s, pat))
  }

  lemma {:induction false} ReplaceAbsent(s: string, pat: string, rep: string)
    requires |pat| > 0 && !Contains(s, pat)
    ensures ReplaceAll(s, pat, rep) == s
  {
    assert SplitBy(s, pat) == [s];
  }

  lemma {:induction false} JoinEndsWithLast(sep: string, parts: seq<string>)
    requires |parts| >= 2
    ensures EndsWith(Join(sep, parts), sep + parts[|parts| - 1])
  {
    if |parts| > 2 {
      JoinEndsWithLast(sep, parts[1..]);
    }
  }

  /** Python's `s.split(marker)[-1]`: the text after the last occurrence of `marker`. */
  function AfterLast(s: string, marker: string): (r: string)
    requires |marker| > 0
    ensures !Contains(r, marker)
    ensures Contains(s, marker) ==> EndsWith(s, marker + r)
    ensures !Contains(s, marker) ==> r == s
  {
    var parts := SplitBy(s, marker);
    if |parts| >= 2 then JoinEndsWithLast(marker, parts); parts[|parts| - 1]
    else assert parts == [s]; parts[0]
  }

  /** Python's `s.replace(c, '', 1)`: drops the first occurrence of `c`, if any. */
  function RemoveFirst(s: string, c: char): (r: string)
    ensures c in s ==> |r| + 1 == |s| && multiset(r) + multiset{c} == multiset(s)
    ensures c !in s ==> r == s
  {
    if s == [] then []
    else
      assert s == [s[0]] + s[1..];
      if s[0] == c then s[1..]
      else [s[0]] + RemoveFirst(s[1..], c)
  }

  predicate IsDigit(c: char)
  {
    '0' <= c <= '9'
  }

  /** Python's `str.isdigit()` on ASCII: non-empty and all decimal digits. */
  predicate IsDigits(s: string)
  {
    |s| > 0 && forall i :: 0 <= i < |s| ==> IsDigit(s[i])
  }

  /** Python's `int(s)` on a string of decimal digits. */
  function DigitsValue(s: string): nat
  {
    if s == [] then 0
    else 10 * DigitsValue(s[..|s| - 1]) + (if IsDigit(s[|s| - 1]) then s[|s| - 1] as int - '0' as int else 0)
  }

  /** Python's `str(n)` for a natural number. */
  function Decimal(n: nat): (r: string)
    ensures IsDigits(r)
  {
    if n < 10 then [('0' as int + n) as char]
    else Decimal(n / 10) + [('0' as int + n % 10) as char]
  }

  /** Reading back the decimal text of `n` gives `n`. */
  lemma {:induction false} DecimalRoundTrip(n: nat)
    ensures DigitsValue(Decimal(n)) == n
  {
    var d := Decimal(n);
    if n >= 10 {
      assert d[..|d| - 1] == Decimal(n / 10);
      DecimalRoundTrip(n / 10);
    }
  }
}

=== FILE: tool_registry.dfy ===
// The agent's tool registry and its dispatcher (AuditAgent.__init__'s tool table and
// AuditAgent.execute_tool). A tool is an opaque function from the parsed call arguments to
// either the string it returns or the message of the exception it raises; the dispatcher
// turns both an unknown name and a raised exception into a string, so it never raises.

module ToolRegistry {
  import opened Text
  import opened ActionParser
  import opened PostgresTools

  /** What calling a tool produced: the string it returned, or the message of what it raised. */
  datatype Outcome = Returned(text: string) | Raised(message: string)

  /** A tool, called with the positional and keyword arguments of a parsed action line. */
  type Tool = (seq<Value>, map<string, Value>) -> Outcome

  /** The names registered when the agent is constructed, in registration order. */
  const ToolNames: seq<string> := [
    "query_postgres", "list_tables", "get_table_schema", "get_distinct_statuses",
    "create_security_alert", "send_email_alert", "generate_report", "request_manual_review"
  ]

  /** The agent's fixed state: its tool table and its system prompt. Neither changes after construction. */
  datatype AuditAgent = AuditAgent(tools: map<string, Tool>, systemPrompt: string)

  /** The agent as constructed: every registered name bound to its implementation, and nothing else. */
  function NewAgent(impl: string -> Tool, prompt: string): (a: AuditAgent)
    ensures forall name :: name in a.tools <==> name in ToolNames
    ensures forall name :: name in a.tools ==> a.tools[name] == impl(name)
    ensures a.systemPrompt == prompt
  {
    AuditAgent(map name | name in ToolNames :: impl(name), prompt)
  }

  const UnknownToolPrefix: string := "Error: unknown tool '"
  const ToolFailurePrefix: string := "Error executing "

  function UnknownToolError(name: string): string
  {
    UnknownToolPrefix + name + "'"
  }

  function ToolFailure(name: string, message: string): string
  {
    ToolFailurePrefix + name + ": " + message
  }

  /** The dispatcher: look the name up, call the tool, and report either failure as a string. */
  function ExecuteTool(agent: AuditAgent, name: string, args: seq<Value>, kwargs: map<string, Value>): string
  {
    if name !in agent.tools then UnknownToolError(name)
    else
      match agent.tools[name](args, kwargs)
      case Returned(text) => text
      case Raised(message) => ToolFailure(name, message)
  }

  /** Reads back the tool name from an unknown-tool report; None for any other text. */
  function UnknownToolNamed(report: string): (r: Option<string>)
    ensures r.Some? ==> UnknownToolError(r.value) == report
  {
    if |report| > |UnknownToolPrefix| && StartsWith(report, UnknownToolPrefix) && report[|report| - 1] == '\''
    then
      var name := report[|UnknownToolPrefix|..|report| - 1];
      assert report == report[..|UnknownToolPrefix|] + name + [report[|report| - 1]];
      Some(name)
    else None
  }

  // ---------------------------------------------------------------------------
  // Properties of the dispatcher.
  // ---------------------------------------------------------------------------

  /** An unknown name is reported with the name itself, which can be read back from the report. */
  lemma UnknownToolReported(agent: AuditAgent, name: string, args: seq<Value>, kwargs: map<string, Value>)
    requires name !in agent.tools
    ensures UnknownToolNamed(ExecuteTool(agent, name, args, kwargs)) == Some(name)
  {
    var r := UnknownToolError(name);
    assert r[..|UnknownToolPrefix|] == UnknownToolPrefix;
    assert r[|UnknownToolPrefix|..|r| - 1] == name;
  }

  /** On a constructed agent, exactly the unregistered names are reported as unknown. */
  lemma UnknownExactlyUnregistered(impl: string -> Tool, prompt: string, name: string, args: seq<Value>, kwargs: map<string, Value>)
    ensures name !in ToolNames ==>
      ExecuteTool(NewAgent(impl, prompt), name, args, kwargs) == UnknownToolError(name)
    ensures name in ToolNames ==>
      ExecuteTool(NewAgent(impl, prompt), name, args, kwargs) ==
        match impl(name)(args, kwargs)
        case Returned(text) => text
        case Raised(message) => ToolFailure(name, message)
  {
  }

  /** The two dispatcher reports cannot be confused: they differ at index 7. */
  lemma ReportsDistinct(name: string, other: string, message: string)
    ensures UnknownToolError(name) != ToolFailure(other, message)
    ensures UnknownToolNamed(ToolFailure(other, message)).None?
  {
    assert UnknownToolError(name)[7] == 'u';
    assert ToolFailure(other, message)[7] == 'x';
  }

  /** A raised exception is reported with the tool's name first and the exception's message last. */
  lemma FailureReported(agent: AuditAgent, name: string, args: seq<Value>, kwargs: map<string, Value>)
    requires name in agent.tools && agent.tools[name](args, kwargs).Raised?
    ensures var r := ExecuteTool(agent, name, args, kwargs);
      StartsWith(r, ToolFailurePrefix + name + ": ") &&
      EndsWith(r, agent.tools[name](args, kwargs).message) &&
      UnknownToolNamed(r).None?
  {
    var m := agent.tools[name](args, kwargs).message;
    var r := ToolFailure(name, m);
    assert r == (ToolFailurePrefix + name + ": ") + m;
    assert r[..|ToolFailurePrefix + name + ": "|] == ToolFailurePrefix + name + ": ";
    assert r[|r| - |m|..] == m;
    ReportsDistinct(name, name, m);
  }

  // ---------------------------------------------------------------------------
  // The registered query tool.
  // ---------------------------------------------------------------------------

  /**
   * query_postgres as a registered tool: it takes the query as its one positional argument or
   * as the keyword `query`. Any other binding, or a query that is not a string, raises, with
   * the interpreter's message given as `complaint`.
   */
  function QueryTool(db: string -> DbAnswer, complaint: string): Tool
  {
    (args: seq<Value>, kwargs: map<string, Value>) =>
      if |args| == 1 && kwargs == map[] && args[0].StrVal? then Returned(QueryOutcome(args[0].s, db))
      else if args == [] && kwargs.Keys == {"query"} && kwargs["query"].StrVal? then
        Returned(QueryOutcome(kwargs["query"].s, db))
      else Raised(complaint)
  }

  /** A refused query comes back through the dispatcher as the guard's own message, without the database. */
  lemma RefusalThroughDispatcher(agent: AuditAgent, db: string -> DbAnswer, complaint: string, query: string)
    requires "query_postgres" in agent.tools && agent.tools["query_postgres"] == QueryTool(db, complaint)
    requires Guard(query).Some?
    ensures ExecuteTool(agent, "query_postgres", [StrVal(query)], map[]) == Guard(query).value
    ensures ExecuteTool(agent, "query_postgres", [], map["query" := StrVal(query)]) == Guard(query).value
  {
    GuardBeforeDatabase(query, db, db);
    assert map["query" := StrVal(query)].Keys == {"query"};
  }
}
